=== FILE: README.md ===
# Duplicate file finder, modelled in Dafny

This project models the core of `duplicateFileFinder.py`, a script that
finds files with identical content under a directory and then disposes of
the copies. The script runs these steps in order:

1. It walks the directory and keeps the files whose names end with an
   extension.
2. It groups the paths by file size and drops every size held by only one
   file.
3. It hashes each remaining file with MD5, either in 1 MiB chunks or in
   one read, and groups the paths by digest.
4. It keeps the digests shared by two or more files and writes them to
   `duplicateFileList.txt` as `digest TAB path` lines, with an empty line
   after each group.
5. It walks the groups and leaves one path per group untouched. Every other path is
   either deleted or renamed into `<cwd>/duplicated_files/` under a random
   numeric prefix. The script counts the deletions.

Each Python dict is a `dict` from key to list, and its iteration order
decides which file counts as the original. Since Python 3.7 a dict iterates
in insertion order, and the model follows Python 3.7: it represents these
dicts as insertion-ordered association lists (`ListDict.Dict`). The
two "group by" loops are one left fold, `ListDict.Bucket`. The two
"keep lists longer than one" loops are one filter, `ListDict.KeepShared`.

Modules:

- `Seqs`: sequence notions.
- `Paths`: POSIX `os.path.join` and `os.path.split`, and the decimal text
  of the prefix.
- `ListDict`: the ordered dict of lists.
- `Hashing`: `hashFile` and `file.read`.
- `Scan`: the extension filter of `getFilePaths`.
- `Report`: the output file's text and its reading back.
- `Disposal`: `removeDuplicateFiles` as a list of actions.
- `Finder`: the pipeline stages and `run`.

The following are parameters of the model:

- `os.walk`'s output, as a sequence of `(root, file names)` steps.
- The file system, as a size function and a content function.
- MD5, as a function from bytes to digest text.
- `random.randrange(1, 99999999)`, as the sequence of numbers it returns.
- `os.getcwd()`.

## Model

| member | source | states |
|---|---|---|
| Scan.FilterNames | duplicateFileFinder.py:40-49 | The kept names keep their listing order. A name is kept iff it ends with the extension, because both branches of the test agree. An empty extension keeps every file. |
| Scan.FilterNamesCount | duplicateFileFinder.py:40-49 | A name listed several times is kept as often as it is listed when it ends with the extension, and not at all otherwise. |
| Scan.GetFilePaths | duplicateFileFinder.py:35-52 | With no extension, one path is collected per listed file. |
| Scan.JoinAll | duplicateFileFinder.py:43-47 | One path per selected name, in order, each the `os.path.join` of the walk root and that name. |
| Scan.GetFilePathsMembers | duplicateFileFinder.py:39-48 | A path is collected iff it is the join of some walk root with one of that root's file names ending with the extension. |
| Paths.Join | duplicateFileFinder.py:43 | The joined path ends with the file name. |
| Paths.Basename | duplicateFileFinder.py:165 | The name has no separator, ends the path, and is preceded by a separator unless it is the whole path. |
| Paths.BasenameOfJoin | duplicateFileFinder.py:165 | Splitting the join of a root and a separator-free name gives the name back. |
| Paths.DecimalString | duplicateFileFinder.py:166 | `str(n)` is a nonempty run of decimal digits with no leading zero. |
| Paths.DecimalRoundTrip | duplicateFileFinder.py:166 | The decimal text of a number reads back as that number. |
| ListDict.Append | duplicateFileFinder.py:63-67 | An existing key keeps its place and a new key goes last. The values gain exactly the new one. |
| ListDict.AppendGet | duplicateFileFinder.py:63-67 | The appended key's list grows by the value at its end. Every other key's list is unchanged. |
| ListDict.Bucket | duplicateFileFinder.py:60-67 | Keys are unique and in order of first appearance. No list is empty. The values are a permutation of the input. |
| ListDict.BucketGet | duplicateFileFinder.py:60-67 | The list under any key is exactly the inputs with that key, in input order. |
| ListDict.BucketKeyed | duplicateFileFinder.py:60-67 | Every value in a list has that list's key as its image. |
| ListDict.BucketPartition | duplicateFileFinder.py:60-67 | Every input lies in exactly one list: the list of its own key. |
| ListDict.KeepShared | duplicateFileFinder.py:77-80 | An entry is kept iff it has more than one item. Kept entries keep their order, and no value is invented. |
| ListDict.KeepSharedLookup | duplicateFileFinder.py:77-80 | Lookups in the filtered dict return the original list when it has more than one item, and nothing otherwise. Keys stay unique. |
| ListDict.KeepSharedIdempotent | duplicateFileFinder.py:73-84 | Filtering a second time changes nothing. |
| ListDict.FlattenDistinct | duplicateFileFinder.py:154-156 | When all lists together repeat no value, no single list repeats one. |
| Finder.GroupFilesAsSize | duplicateFileFinder.py:56-71 | Every path sits in the list of its own size. Sizes are unique and in first-seen order. Lists are nonempty and in input order. No path is gained or lost. |
| Finder.FilterUniqueFileSizes | duplicateFileFinder.py:73-84 | Exactly the size groups with more than one file survive, unchanged and in order. |
| Hashing.Read | duplicateFileFinder.py:115 | `file.read(n)` returns the next min(n, remaining) bytes, and the rest of the file when n is negative. |
| Hashing.Chunks | duplicateFileFinder.py:115-118 | Every chunk fed to the hasher is nonempty. Every chunk but the last has the full buffer size. A zero buffer feeds nothing. |
| Hashing.ChunksCover | duplicateFileFinder.py:114-118 | The fed chunks concatenate to the whole file, except with a zero buffer. |
| Hashing.FastEqualsFull | duplicateFileFinder.py:109-125 | For every nonzero buffer, the fast and full modes give the same digest: the MD5 of the whole content. |
| Hashing.HashFile | duplicateFileFinder.py:109-125 | The read loop ends, and the method returns the MD5 of the whole content in both modes. With a zero buffer, fast mode returns the MD5 of the empty string. |
| Hashing.FileHash | duplicateFileFinder.py:109-125 | The digest each mode computes. Its contract is stated by `Hashing.FastEqualsFull`: for every nonzero buffer both modes give the MD5 of the whole content. |
| Finder.DigestIsMd5 | duplicateFileFinder.py:98 | The digest of every path, in either mode, is the MD5 of its content. |
| Finder.CalculateHashValueForFiles | duplicateFileFinder.py:87-106 | Each candidate file is in exactly the list of its MD5, in traversal order. Digests are unique. No file is gained or lost. |
| Finder.FindDuplicateFiles | duplicateFileFinder.py:128-148 | Exactly the digest lists with more than one file are kept, unchanged and in order. A report exists iff it is asked for. The report's lines are the file lines plus one empty line per group. |
| Finder.SharedGroupsSound | duplicateFileFinder.py:130-135 | Every kept digest list has at least two files, each with that digest. |
| Report.ReportIsLines | duplicateFileFinder.py:140-146 | The output text is its lines, each ended by a newline: one line per file and one empty line per group. |
| Report.GroupText | duplicateFileFinder.py:144-145 | The inner write loop's text. `Report.GroupTextIsLines` states that it is one `digest TAB path` line per file, in list order. |
| Report.ReportText | duplicateFileFinder.py:141-146 | The text written to `duplicateFileList.txt`. `Report.ReportIsLines` states its lines and `Report.ReportRoundTrip` that it reads back as the groups. |
| Report.SplitUnlines | duplicateFileFinder.py:145-146 | Newline-terminated lines without newlines split back into the same lines. |
| Report.ParseFirstGroup | duplicateFileFinder.py:142-146 | A group's file lines and its empty line parse back into that group. |
| Report.ReportRoundTrip | duplicateFileFinder.py:140-146 | Reading `duplicateFileList.txt` back gives the groups, digests and file order that were written. This holds when digests have no tab or newline and paths have no newline. |
| Seqs.FirstIndex | duplicateFileFinder.py:157 | `list.index` gives the position of the first occurrence, and that position exists iff the value is present. |
| Seqs.DistinctFirstIndex | duplicateFileFinder.py:157 | In a list without repeats, `index` finds each element at its own position. |
| Disposal.StepAction | duplicateFileFinder.py:157-168 | In a group that lists no file twice, a file is kept iff its own position is the kept position (`index` finds it there). Any other file is removed when removable, or otherwise moved under the next random number. |
| Disposal.GroupActions | duplicateFileFinder.py:155-168 | There is one action per file, in list order, and each action is the one the loop body decides for that file. |
| Disposal.DictActions | duplicateFileFinder.py:154-168 | The outer loop's actions, group after group. `Disposal.DictPaths` states that every file gets one action in dict order, and `Disposal.DictDisposal` what is kept and how many are disposed of. |
| Disposal.RemoveDuplicateFiles | duplicateFileFinder.py:150-170 | Every file of every group gets exactly one action, in dict order. `Disposal.FirstFileDisposed` states which file is kept and the printed count. |
| Disposal.GroupPrefixes | duplicateFileFinder.py:166 | The moves of one group use consecutive random draws, in order. |
| Disposal.DrawsFromPrefixes | duplicateFileFinder.py:166 | Moves whose prefixes follow the draw order carry the k-th draw as the k-th prefix. |
| Disposal.GroupKeepsOnly | duplicateFileFinder.py:157 | In a group without repeats, exactly the file at the kept position is kept. |
| Disposal.KeptExactly | duplicateFileFinder.py:157-158 | Actions that keep exactly one position keep exactly that file. |
| Disposal.DisposedCount | duplicateFileFinder.py:159-168 | Disposing of every file but one leaves removals, or moves, equal to the files minus one. |
| Disposal.GroupKeepsOne | duplicateFileFinder.py:155-168 | In a group without repeats, the kept file is the one at the kept position. Removals, or moves, number one less than the files. |
| Disposal.GroupPaths | duplicateFileFinder.py:156 | The group's actions cover its files in order. |
| Disposal.DictPaths | duplicateFileFinder.py:154-156 | Every file of every group gets exactly one action, in dict order. |
| Disposal.DictKept | duplicateFileFinder.py:154-158 | The kept files are the file at the kept position of each group, in dict order. |
| Disposal.DictRemovals | duplicateFileFinder.py:160-162 | `removedFileNumber` is the number of files minus the number of groups when removing, and 0 when moving. |
| Disposal.DictMoves | duplicateFileFinder.py:164-168 | Moving draws one prefix per moved file: files minus groups. Removing draws none. |
| Disposal.DictDisposal | duplicateFileFinder.py:150-170 | In each group the path at the kept position is left untouched and every other path is removed or moved. `removedFileNumber` is the number of files minus the number of groups when removing, and 0 otherwise. Moving draws one prefix per moved file. |
| Disposal.DictPrefixes | duplicateFileFinder.py:166 | The k-th move of the run uses the k-th random draw. |
| Disposal.DestinationName | duplicateFileFinder.py:165-168 | The moved file's new last component is `prefix_name`. |
| Disposal.Destination | duplicateFileFinder.py:165-168 | Where a moved file goes. `Disposal.MoveTarget` states that it lies directly in `<cwd>/duplicated_files/` and that its prefix and original name read back. |
| Disposal.MoveTarget | duplicateFileFinder.py:165-168 | A moved file lands directly in `<cwd>/duplicated_files/`. The text before the first underscore of its new name is the decimal prefix, and the text after it is the original name. |
| Disposal.SplitPrefixed | duplicateFileFinder.py:167-168 | A digits-underscore-rest name splits back at its first underscore. |
| Disposal.FirstFileDisposed | duplicateFileFinder.py:157 | As written: every group of two or more distinct files keeps exactly its second file, so its first is never kept, and the others number one fewer than the files. |
| Disposal.KeepFirstKeepsFirst | duplicateFileFinder.py:157 | Corrected rule: each group keeps its first file, and the count is files minus groups when removing. |
| Finder.Run | duplicateFileFinder.py:172-193 | The run scans the walk's selected paths, and every duplicate group it reports has two or more files. |
| Finder.DuplicatesSound | duplicateFileFinder.py:177-189 | Every duplicate group has at least two files, and all of them have the group's digest, the MD5 of their content. |
| Finder.DuplicatesFromFiles | duplicateFileFinder.py:177-189 | Digests are unique, and the groups hold each file at most as often as the scan listed it. |
| Finder.DuplicatesComplete | duplicateFileFinder.py:177-189 | On a file system where size is content length, two different scanned paths with equal content both end up in the group of their MD5. |
| Finder.DuplicatesDisposable | duplicateFileFinder.py:177-192 | When the scan repeats no path, every duplicate group repeats no file and has a file at list index 1. |
| Finder.RunDisposal | duplicateFileFinder.py:172-193 | In a run, every duplicate file gets one action, and list index 1 of each group is kept. The removal count is files minus groups, or 0 when moving. |
| Finder.RunKeepFirst | duplicateFileFinder.py:172-193 | A run with the corrected keep rule scans and reports exactly what `run` does. |
| Finder.RunKeepFirstDisposal | duplicateFileFinder.py:150-170 | With the corrected rule, every duplicate file gets one action, the first file of each group is kept, and the count is files minus groups (or 0 when moving). |
| Finder.DuplicatesReadable | duplicateFileFinder.py:140-146 | When MD5 text has no tab or newline and scanned paths have no newline, the duplicate groups satisfy the conditions for reading the report back. |
| Finder.RunReportReadsBack | duplicateFileFinder.py:140-146 | The report a run writes reads back as the run's duplicate groups, when MD5 text has no tab or newline and no path has a newline. |

## Left out

- The directory walk (`os.walk`), `os.path.getsize` and `open(...).read()` are not performed. The model takes their results as parameters: `Scan.WalkStep` and `Finder.FileSystem`.
- MD5 itself is not modelled. It is a function parameter. Only one property is relied on: a streaming hasher's digest depends only on the concatenation of the bytes fed to it.
- `os.remove` and `os.rename` are not performed. `removeDuplicateFiles` becomes a list of actions; a move's target is `Disposal.Destination`.
- The script never creates `duplicated_files/`, so a rename fails when the directory is missing. The model does not model this failure.
- If two moved files have the same name and draw the same prefix, the second rename overwrites the first. The model does not model that either.
- `random.randrange(1, 99999999)` is a parameter: `random(k)` is the k-th number drawn, with values in `Disposal.Token`.
- `os.getcwd()` is a parameter `cwd` of `Disposal.Destination`.
- Every `print`, the `time` calls, and the command-line entry point of `run` are left out. Under Python 3.7, the version modelled, they only write output, as long as every name can be encoded for standard output (see the item on file names below). From Python 3.8 on, `time.clock()` no longer exists, so `run` raises AttributeError at duplicateFileFinder.py:175 before it scans anything. The model does not model that failure.
- Python version: the model assumes Python 3.7, where a dict iterates in insertion order. Under Python 2 the dict orders differ, so each hash list can hold its files in another order and a different file sits at index 1 and is kept. That order is not modelled.
- File names are modelled as sequences of Unicode scalar values (Dafny `char`). On POSIX, Python 3 decodes file-name bytes that are invalid in the file-system encoding into lone surrogates, for example the single byte 0xFF becomes `'\udcff'`. Such names are outside the model. For such a name, and for any character the locale's encoding cannot represent:
  - writing the report at duplicateFileFinder.py:145 raises UnicodeEncodeError, so the run stops before any file is disposed of;
  - with a strict standard output, the `print` at duplicateFileFinder.py:163 raises right after the `os.remove` at line 161.
  `Report.ReportText` is total, and `Finder.Run` always returns a full disposal plan.
- Exceptions from the file system are not modelled. The script catches none, so each of these would stop the run partway:
  - `os.path.getsize` on a broken symbolic link that `os.walk` lists (duplicateFileFinder.py:61);
  - `open` on an unreadable file (duplicateFileFinder.py:112);
  - `os.remove` on a file that cannot be deleted (duplicateFileFinder.py:161), which leaves the disposal half done.
  `Finder.FileSystem` is total, and `Disposal.Outcome` describes a run in which every action succeeds.
- Every path is treated as an independent file; symbolic links are not modelled. `os.walk` lists a symbolic link to a regular file among the files, and `os.path.getsize` and `open` follow it, so a link and its target land in one group. If the link sits at the kept position, the target is removed or moved and the kept link dangles, so no copy of the content stays in place. The model promises only that the path at the kept position is left untouched.
- Path handling is POSIX-only: the separator is `/` and `os.path.join` follows posixpath. Windows drive and separator rules are not modelled.
- Writing `duplicateFileList.txt` is modelled as the text written. The file name and the I/O are left out.
- The comment at duplicateFileFinder.py:157 says the first file is kept, but the code keeps list index 1. The model follows the code: `Finder.Run` keeps index 1, and `Finder.RunKeepFirst` is the run with the corrected rule (see Findings).
- Finder.Run: its contract states only the scanned paths and the group sizes. The remaining properties of a run are stated in the lemmas `Finder.RunDisposal`, `Finder.RunReportReadsBack`, `Finder.DuplicatesSound` and `Finder.DuplicatesComplete`.
- Finder.DuplicatesDisposable and Finder.RunDisposal: both require that the scan lists no path twice. `os.walk` guarantees this, but the walk is a parameter.

## Findings

| source | as written | input that shows it | evidently intended | confidence | as-written member | corrected member |
|---|---|---|---|---|---|---|
| duplicateFileFinder.py:157 | `listOfFile.index(filename) == 1` keeps the second file of each group, while the comment says "don't remove first file keep them as original file" | a group `[a, b]` of distinct files: `a` is removed (or moved) and `b` is kept | compare with 0: keep the first-seen file and dispose of the rest | high; not executed | Disposal.FirstFileDisposed | Disposal.KeepFirstKeepsFirst |

=== FILE: disposal.dfy ===
/** removeDuplicateFiles as a plan: for every file of every duplicate group,
    in dict order, the action the program takes (keep it, os.remove it, or
    os.rename it into duplicated_files) and the number of removals
    it reports.  Performing the actions is I/O and is left to the caller. */
module Disposal {
  import opened Seqs
  import opened Paths
  import opened ListDict
  import opened Hashing

  /** A value of `random.randrange(1, 99999999)`. */
  type Token = x: int | 1 <= x < 99999999 witness 1

  /** The directory under the working directory that moved files go to. */
  const MovedDir: string := "duplicated_files"

  /** What happens to one file.  A moved file's new path is
      Destination(cwd, prefix, path). */
  datatype Action =
    | Keep(path: Path)
    | Remove(path: Path)
    | Move(path: Path, prefix: Token)

  /** Where a moved file goes:
      `os.getcwd() + os.sep + 'duplicated_files' + os.sep + prefix + "_" + name`
      with name the last component of the file's path. */
  function Destination(cwd: Path, prefix: Token, filename: Path): Path {
    MovedFolder(cwd) + MovedName(prefix, filename)
  }

  /** `os.getcwd() + os.sep + 'duplicated_files' + os.sep`. */
  function MovedFolder(cwd: Path): Path {
    cwd + [Sep] + MovedDir + [Sep]
  }

  /** `filenamePrefix + "_" + name`. */
  function MovedName(prefix: Token, filename: Path): string {
    DecimalString(prefix) + "_" + Basename(filename)
  }

  /** The random prefixes the moves drew, in order. */
  function Prefixes(acts: seq<Action>): seq<Token> {
    if |acts| == 0 then []
    else (if acts[0].Move? then [acts[0].prefix] else []) + Prefixes(acts[1..])
  }

  /** `removedFileNumber`: it grows by one with every os.remove. */
  function Removals(acts: seq<Action>): nat {
    if |acts| == 0 then 0
    else (if acts[0].Remove? then 1 else 0) + Removals(acts[1..])
  }

  /** The files left in place as originals, in order. */
  function KeptPaths(acts: seq<Action>): seq<Path> {
    if |acts| == 0 then []
    else (if acts[0].Keep? then [acts[0].path] else []) + KeptPaths(acts[1..])
  }

  /** The file each action is about, in order. */
  function ActionPaths(acts: seq<Action>): (paths: seq<Path>)
    ensures |paths| == |acts|
    ensures forall t :: 0 <= t < |acts| ==> paths[t] == acts[t].path
  {
    if |acts| == 0 then [] else [acts[0].path] + ActionPaths(acts[1..])
  }

  lemma {:induction false} PrefixesConcat(a: seq<Action>, b: seq<Action>)
    ensures Prefixes(a + b) == Prefixes(a) + Prefixes(b)
  {
    if |a| == 0 {
      assert a + b == b;
    } else {
      var h := if a[0].Move? then [a[0].prefix] else [];
      assert (a + b)[1..] == a[1..] + b;
      assert Prefixes(a + b) == h + Prefixes(a[1..] + b);
      PrefixesConcat(a[1..], b);
      assert h + (Prefixes(a[1..]) + Prefixes(b)) == (h + Prefixes(a[1..])) + Prefixes(b);
    }
  }

  lemma {:induction false} RemovalsConcat(a: seq<Action>, b: seq<Action>)
    ensures Removals(a + b) == Removals(a) + Removals(b)
  {
    if |a| == 0 {
      assert a + b == b;
    } else {
      assert (a + b)[1..] == a[1..] + b;
      RemovalsConcat(a[1..], b);
    }
  }

  lemma {:induction false} KeptPathsConcat(a: seq<Action>, b: seq<Action>)
    ensures KeptPaths(a + b) == KeptPaths(a) + KeptPaths(b)
  {
    if |a| == 0 {
      assert a + b == b;
    } else {
      var h := if a[0].Keep? then [a[0].path] else [];
      assert (a + b)[1..] == a[1..] + b;
      assert KeptPaths(a + b) == h + KeptPaths(a[1..] + b);
      KeptPathsConcat(a[1..], b);
      assert h + (KeptPaths(a[1..]) + KeptPaths(b)) == (h + KeptPaths(a[1..])) + KeptPaths(b);
    }
  }

  lemma {:induction false} ActionPathsConcat(a: seq<Action>, b: seq<Action>)
    ensures ActionPaths(a + b) == ActionPaths(a) + ActionPaths(b)
  {
    if |a| == 0 {
      assert a + b == b;
    } else {
      var h := [a[0].path];
      assert (a + b)[1..] == a[1..] + b;
      assert ActionPaths(a + b) == h + ActionPaths(a[1..] + b);
      ActionPathsConcat(a[1..], b);
      assert h + (ActionPaths(a[1..]) + ActionPaths(b)) == (h + ActionPaths(a[1..])) + ActionPaths(b);
    }
  }

  /** a is what the inner loop does with items[i]: a file is kept iff
      `items.index(file)` equals keepAt (the program compares with 1); any
      other file is removed when removable and otherwise moved. */
  predicate Decides(items: seq<Path>, keepAt: nat, i: nat, removable: bool, a: Action)
    requires i < |items|
  {
    && a.path == items[i]
    && (a.Keep? <==> FirstIndex(items, items[i]) == keepAt)
    && (!a.Keep? ==> if removable then a.Remove? else a.Move?)
  }

  /** What the inner loop does with items[j], given the number the next
      random draw would return.  In a group that lists no file twice,
      list.index finds items[j] at j, so the file is kept iff j is the kept
      position. */
  function StepAction(items: seq<Path>, keepAt: nat, j: nat, removable: bool, next: Token): (act: Action)
    requires j < |items|
    ensures Decides(items, keepAt, j, removable, act)
    ensures act.Move? ==> act.prefix == next
    ensures Distinct(items) ==> (act.Keep? <==> j == keepAt)
  {
    var f := items[j];
    assert Distinct(items) ==> FirstIndex(items, f) == j by {
      if Distinct(items) { DistinctFirstIndex(items, j); }
    }
    if FirstIndex(items, f) == keepAt then Keep(f)
    else if removable then Remove(f)
    else Move(f, next)
  }

  /** The inner loop of removeDuplicateFiles over items[j..], with `drawn`
      random numbers already used.  A file is kept iff `items.index(file)`
      equals keepAt (the program compares with 1); any other file is removed
      when removable and otherwise moved under the next random prefix. */
  function GroupActions(items: seq<Path>, keepAt: nat, j: nat, removable: bool,
                        random: nat -> Token, drawn: nat): (acts: seq<Action>)
    requires j <= |items|
    ensures |acts| == |items| - j
    ensures forall t :: 0 <= t < |acts| ==> Decides(items, keepAt, j + t, removable, acts[t])
    decreases |items| - j
  {
    if j == |items| then []
    else
      var act := StepAction(items, keepAt, j, removable, random(drawn));
      var rest := GroupActions(items, keepAt, j + 1, removable, random,
                               if act.Move? then drawn + 1 else drawn);
      [act] + rest
  }

  /** The moves of acts carry the random numbers drawn + 0, drawn + 1, ...
      in order. */
  predicate DrawsFrom(acts: seq<Action>, random: nat -> Token, drawn: nat) {
    if |acts| == 0 then true
    else if acts[0].Move? then acts[0].prefix == random(drawn) && DrawsFrom(acts[1..], random, drawn + 1)
    else DrawsFrom(acts[1..], random, drawn)
  }

  lemma {:induction false} DrawsFromPrefixes(acts: seq<Action>, random: nat -> Token, drawn: nat)
    requires DrawsFrom(acts, random, drawn)
    ensures forall m :: 0 <= m < |Prefixes(acts)| ==> Prefixes(acts)[m] == random(drawn + m)
  {
    if |acts| > 0 {
      var rest := acts[1..];
      var ps := Prefixes(acts);
      if acts[0].Move? {
        DrawsFromPrefixes(rest, random, drawn + 1);
        assert ps == [acts[0].prefix] + Prefixes(rest);
        forall m | 0 <= m < |ps| ensures ps[m] == random(drawn + m) {
          if m > 0 {
            assert ps[m] == Prefixes(rest)[m - 1];
          }
        }
      } else {
        DrawsFromPrefixes(rest, random, drawn);
        assert ps == Prefixes(rest);
      }
    }
  }

  lemma {:induction false} GroupDraws(items: seq<Path>, keepAt: nat, j: nat, removable: bool,
                                      random: nat -> Token, drawn: nat)
    requires j <= |items|
    ensures DrawsFrom(GroupActions(items, keepAt, j, removable, random, drawn), random, drawn)
    decreases |items| - j
  {
    if j < |items| {
      var act := StepAction(items, keepAt, j, removable, random(drawn));
      var drawn' := if act.Move? then drawn + 1 else drawn;
      var rest := GroupActions(items, keepAt, j + 1, removable, random, drawn');
      assert GroupActions(items, keepAt, j, removable, random, drawn) == [act] + rest;
      GroupDraws(items, keepAt, j + 1, removable, random, drawn');
      assert ([act] + rest)[1..] == rest;
    }
  }

  /** The moves of items[j..] use the random numbers drawn + 0, drawn + 1,
      ... in order, each once. */
  lemma GroupPrefixes(items: seq<Path>, keepAt: nat, j: nat, removable: bool,
                      random: nat -> Token, drawn: nat)
    requires j <= |items|
    ensures forall m :: 0 <= m < |Prefixes(GroupActions(items, keepAt, j, removable, random, drawn))| ==>
              Prefixes(GroupActions(items, keepAt, j, removable, random, drawn))[m] == random(drawn + m)
  {
    GroupDraws(items, keepAt, j, removable, random, drawn);
    DrawsFromPrefixes(GroupActions(items, keepAt, j, removable, random, drawn), random, drawn);
  }

  /** The outer loop: the groups in dict order, the random numbers used by
      one group not used again by the next. */
  function DictActions(d: Dict<Digest, Path>, keepAt: nat, removable: bool,
                       random: nat -> Token, drawn: nat): seq<Action>
  {
    if |d| == 0 then []
    else
      var g := GroupActions(d[0].items, keepAt, 0, removable, random, drawn);
      g + DictActions(d[1..], keepAt, removable, random, drawn + |Prefixes(g)|)
  }

  /** What removeDuplicateFiles does, and the count it prints. */
  datatype Outcome = Outcome(actions: seq<Action>, removedFileNumber: nat)

  /** removeDuplicateFiles as written: the file at list index 1 is kept. */
  function RemoveDuplicateFiles(d: Dict<Digest, Path>, removable: bool,
                                random: nat -> Token): (out: Outcome)
    ensures ActionPaths(out.actions) == Flatten(d)
  {
    DictPaths(d, 1, removable, random, 0);
    var acts := DictActions(d, 1, removable, random, 0);
    Outcome(acts, Removals(acts))
  }

  /** removeDuplicateFiles with the rule its comment states, "don't remove
      first file, keep them as original file": list index 0 is kept. */
  function RemoveDuplicateFilesKeepFirst(d: Dict<Digest, Path>, removable: bool,
                                         random: nat -> Token): (out: Outcome)
    ensures ActionPaths(out.actions) == Flatten(d)
  {
    DictPaths(d, 0, removable, random, 0);
    var acts := DictActions(d, 0, removable, random, 0);
    Outcome(acts, Removals(acts))
  }

  /** Every group has at least keepAt + 1 files and none twice: true of the
      duplicate groups of one scan when keepAt is 0 or 1. */
  predicate Disposable(d: Dict<Digest, Path>, keepAt: nat) {
    forall i :: 0 <= i < |d| ==> keepAt < |d[i].items| && Distinct(d[i].items)
  }

  /** The original of every group, in dict order. */
  function Originals(d: Dict<Digest, Path>, keepAt: nat): (r: seq<Path>)
    requires Disposable(d, keepAt)
    ensures |r| == |d|
    ensures forall i :: 0 <= i < |d| ==> r[i] == d[i].items[keepAt]
  {
    if |d| == 0 then [] else [d[0].items[keepAt]] + Originals(d[1..], keepAt)
  }

  /** In a group without repeated files exactly the file at position keepAt
      is kept. */
  lemma GroupKeepsOnly(items: seq<Path>, keepAt: nat, j: nat, removable: bool,
                       random: nat -> Token, drawn: nat)
    requires Distinct(items) && j <= |items|
    ensures forall t :: 0 <= t < |GroupActions(items, keepAt, j, removable, random, drawn)| ==>
              (GroupActions(items, keepAt, j, removable, random, drawn)[t].Keep? <==> j + t == keepAt)
  {
    var acts := GroupActions(items, keepAt, j, removable, random, drawn);
    forall t | 0 <= t < |acts| ensures acts[t].Keep? <==> j + t == keepAt {
      DistinctFirstIndex(items, j + t);
    }
  }

  /** Actions for items[j..] that keep exactly the file at position
      keepAt keep items[keepAt] when it lies in that range, and nothing
      otherwise. */
  lemma {:induction false} KeptExactly(acts: seq<Action>, items: seq<Path>, j: nat, keepAt: nat)
    requires j + |acts| == |items|
    requires forall t :: 0 <= t < |acts| ==> acts[t].path == items[j + t]
    requires forall t :: 0 <= t < |acts| ==> (acts[t].Keep? <==> j + t == keepAt)
    ensures KeptPaths(acts) == if j <= keepAt < |items| then [items[keepAt]] else []
  {
    if |acts| > 0 {
      var rest := acts[1..];
      assert forall t :: 0 <= t < |rest| ==> rest[t] == acts[t + 1];
      KeptExactly(rest, items, j + 1, keepAt);
    }
  }

  /** Of actions that keep exactly one file position and remove
      (removable) or move (otherwise) every other, the removals, or the
      moves, number one less than the files when keepAt lies in range. */
  lemma {:induction false} DisposedCount(acts: seq<Action>, items: seq<Path>, j: nat, keepAt: nat,
                                         removable: bool)
    requires j + |acts| == |items|
    requires forall t :: 0 <= t < |acts| ==> (acts[t].Keep? <==> j + t == keepAt)
    requires forall t :: 0 <= t < |acts| && !acts[t].Keep? ==>
               (if removable then acts[t].Remove? else acts[t].Move?)
    ensures Removals(acts)
              == if removable then |acts| - (if j <= keepAt < |items| then 1 else 0) else 0
    ensures |Prefixes(acts)|
              == if removable then 0 else |acts| - (if j <= keepAt < |items| then 1 else 0)
  {
    if |acts| > 0 {
      var rest := acts[1..];
      assert forall t :: 0 <= t < |rest| ==> rest[t] == acts[t + 1];
      DisposedCount(rest, items, j + 1, keepAt, removable);
    }
  }

  /** Hence in a group without repeated files the kept file of items[j..]
      is items[keepAt] when j <= keepAt, and every other file is removed
      (removable) or moved (otherwise): removals, or moves, number one less
      than the files. */
  lemma GroupKeepsOne(items: seq<Path>, keepAt: nat, j: nat, removable: bool,
                      random: nat -> Token, drawn: nat)
    requires Distinct(items) && keepAt < |items| && j <= |items|
    ensures KeptPaths(GroupActions(items, keepAt, j, removable, random, drawn))
              == (if j <= keepAt then [items[keepAt]] else [])
    ensures Removals(GroupActions(items, keepAt, j, removable, random, drawn))
              == (if removable then |items| - j - (if j <= keepAt then 1 else 0) else 0)
    ensures |Prefixes(GroupActions(items, keepAt, j, removable, random, drawn))|
              == (if removable then 0 else |items| - j - (if j <= keepAt then 1 else 0))
  {
    var acts := GroupActions(items, keepAt, j, removable, random, drawn);
    GroupKeepsOnly(items, keepAt, j, removable, random, drawn);
    KeptExactly(acts, items, j, keepAt);
    DisposedCount(acts, items, j, keepAt, removable);
  }

  /** Over the whole dict every file gets exactly one action, in dict
      order. */
  lemma {:induction false} DictPaths(d: Dict<Digest, Path>, keepAt: nat, removable: bool,
                                     random: nat -> Token, drawn: nat)
    ensures ActionPaths(DictActions(d, keepAt, removable, random, drawn)) == Flatten(d)
  {
    if |d| > 0 {
      var g := GroupActions(d[0].items, keepAt, 0, removable, random, drawn);
      var drawn' := drawn + |Prefixes(g)|;
      var rest := DictActions(d[1..], keepAt, removable, random, drawn');
      assert DictActions(d, keepAt, removable, random, drawn) == g + rest;
      DictPaths(d[1..], keepAt, removable, random, drawn');
      ActionPathsConcat(g, rest);
      GroupPaths(d[0].items, keepAt, 0, removable, random, drawn);
      assert d[0].items[0..] == d[0].items;
      assert Flatten(d) == d[0].items + Flatten(d[1..]);
    }
  }

  /** Over the whole dict the kept files are exactly the file at position
      keepAt of each group, in dict order: the path at the kept position of
      each group is left untouched. */
  lemma {:induction false} DictKept(d: Dict<Digest, Path>, keepAt: nat, removable: bool,
                                    random: nat -> Token, drawn: nat)
    requires Disposable(d, keepAt)
    ensures KeptPaths(DictActions(d, keepAt, removable, random, drawn)) == Originals(d, keepAt)
  {
    if |d| > 0 {
      var items := d[0].items;
      var g := GroupActions(items, keepAt, 0, removable, random, drawn);
      var drawn' := drawn + |Prefixes(g)|;
      var rest := DictActions(d[1..], keepAt, removable, random, drawn');
      assert KeptPaths(g) == [items[keepAt]] by {
        GroupKeepsOne(items, keepAt, 0, removable, random, drawn);
      }
      assert KeptPaths(rest) == Originals(d[1..], keepAt) by {
        assert Disposable(d[1..], keepAt);
        DictKept(d[1..], keepAt, removable, random, drawn');
      }
      KeptPathsConcat(g, rest);
      assert DictActions(d, keepAt, removable, random, drawn) == g + rest;
    }
  }

  /** Removing deletes every file but the kept ones and counts them: the
      sum over groups of (len - 1); moving deletes nothing. */
  lemma {:induction false} DictRemovals(d: Dict<Digest, Path>, keepAt: nat, removable: bool,
                                    random: nat -> Token, drawn: nat)
    requires Disposable(d, keepAt)
    ensures Removals(DictActions(d, keepAt, removable, random, drawn))
              == (if removable then |Flatten(d)| - |d| else 0)
  {
    if |d| > 0 {
      var items := d[0].items;
      var g := GroupActions(items, keepAt, 0, removable, random, drawn);
      var drawn' := drawn + |Prefixes(g)|;
      var rest := DictActions(d[1..], keepAt, removable, random, drawn');
      assert DictActions(d, keepAt, removable, random, drawn) == g + rest;
      assert Disposable(d[1..], keepAt);
      GroupKeepsOne(items, keepAt, 0, removable, random, drawn);
      assert |Flatten(d)| == |items| + |Flatten(d[1..])|;
      DictRemovals(d[1..], keepAt, removable, random, drawn');
      RemovalsConcat(g, rest);
    }
  }

  /** Moving draws one random prefix per moved file, the sum over groups of
      (len - 1); removing draws none. */
  lemma {:induction false} DictMoves(d: Dict<Digest, Path>, keepAt: nat, removable: bool,
                                    random: nat -> Token, drawn: nat)
    requires Disposable(d, keepAt)
    ensures |Prefixes(DictActions(d, keepAt, removable, random, drawn))|
              == (if removable then 0 else |Flatten(d)| - |d|)
  {
    if |d| > 0 {
      var items := d[0].items;
      var g := GroupActions(items, keepAt, 0, removable, random, drawn);
      var drawn' := drawn + |Prefixes(g)|;
      var rest := DictActions(d[1..], keepAt, removable, random, drawn');
      assert DictActions(d, keepAt, removable, random, drawn) == g + rest;
      assert Disposable(d[1..], keepAt);
      GroupKeepsOne(items, keepAt, 0, removable, random, drawn);
      assert |Flatten(d)| == |items| + |Flatten(d[1..])|;
      DictMoves(d[1..], keepAt, removable, random, drawn');
      PrefixesConcat(g, rest);
    }
  }

  /** Together: the path at the kept position of each group is the one
      kept; `removedFileNumber` is the number of files minus the number of
      groups when removing and 0 when moving, and moving draws one prefix
      per moved file. */
  lemma DictDisposal(d: Dict<Digest, Path>, keepAt: nat, removable: bool,
                     random: nat -> Token, drawn: nat)
    requires Disposable(d, keepAt)
    ensures KeptPaths(DictActions(d, keepAt, removable, random, drawn)) == Originals(d, keepAt)
    ensures Removals(DictActions(d, keepAt, removable, random, drawn))
              == (if removable then |Flatten(d)| - |d| else 0)
    ensures |Prefixes(DictActions(d, keepAt, removable, random, drawn))|
              == (if removable then 0 else |Flatten(d)| - |d|)
  {
    DictKept(d, keepAt, removable, random, drawn);
    DictRemovals(d, keepAt, removable, random, drawn);
    DictMoves(d, keepAt, removable, random, drawn);
  }

  /** The moves of the whole plan use the random numbers drawn + 0,
      drawn + 1, ... in order, each once. */
  lemma {:induction false} DictPrefixes(d: Dict<Digest, Path>, keepAt: nat, removable: bool,
                                        random: nat -> Token, drawn: nat)
    ensures forall m :: 0 <= m < |Prefixes(DictActions(d, keepAt, removable, random, drawn))| ==>
              Prefixes(DictActions(d, keepAt, removable, random, drawn))[m] == random(drawn + m)
  {
    if |d| > 0 {
      var g := GroupActions(d[0].items, keepAt, 0, removable, random, drawn);
      var drawn' := drawn + |Prefixes(g)|;
      var rest := DictActions(d[1..], keepAt, removable, random, drawn');
      DictPrefixes(d[1..], keepAt, removable, random, drawn');
      GroupPrefixes(d[0].items, keepAt, 0, removable, random, drawn);
      PrefixesConcat(g, rest);
      var all := Prefixes(g) + Prefixes(rest);
      forall m | 0 <= m < |all| ensures all[m] == random(drawn + m) {
        if m >= |Prefixes(g)| {
          var m' := m - |Prefixes(g)|;
          assert all[m] == Prefixes(rest)[m'];
          assert Prefixes(rest)[m'] == random(drawn' + m');
          assert drawn' + m' == drawn + m;
        } else {
          assert all[m] == Prefixes(g)[m];
        }
      }
    }
  }

  lemma GroupPaths(items: seq<Path>, keepAt: nat, j: nat, removable: bool,
                   random: nat -> Token, drawn: nat)
    requires j <= |items|
    ensures ActionPaths(GroupActions(items, keepAt, j, removable, random, drawn)) == items[j..]
  {
    var acts := GroupActions(items, keepAt, j, removable, random, drawn);
    assert forall t :: 0 <= t < |acts| ==> ActionPaths(acts)[t] == items[j..][t];
  }

  /** A name made of decimal digits, an underscore and a rest splits back
      at its first underscore. */
  lemma SplitPrefixed(digits: string, rest: string)
    requires forall i :: 0 <= i < |digits| ==> '0' <= digits[i] <= '9'
    ensures var name := digits + "_" + rest;
      && FirstIndex(name, '_') == |digits|
      && name[..|digits|] == digits
      && name[|digits| + 1..] == rest
  {
    var name := digits + "_" + rest;
    assert name[|digits|] == '_';
    assert forall i :: 0 <= i < |digits| ==> name[i] == digits[i];
    assert name[..|digits|] == digits;
    assert name[|digits| + 1..] == rest;
  }

  /** The last component of a destination is the prefixed file name. */
  lemma DestinationName(cwd: Path, prefix: Token, filename: Path)
    ensures Basename(Destination(cwd, prefix, filename)) == MovedName(prefix, filename)
  {
    var digits := DecimalString(prefix);
    var name := MovedName(prefix, filename);
    var dst := Destination(cwd, prefix, filename);
    assert Sep !in digits;
    assert Sep !in name;
    assert dst[|dst| - |name|..] == name;
    assert dst[|dst| - |name| - 1] == Sep;
    BasenameUnique(dst, name);
  }

  /** The text before the first underscore of a moved file's new name. */
  function PrefixText(name: string): string {
    name[..FirstIndex(name, '_')]
  }

  /** The text after the first underscore of a moved file's new name. */
  function OriginalName(name: string): string {
    var cut := FirstIndex(name, '_');
    if cut < |name| then name[cut + 1..] else ""
  }

  /** Every moved file lands directly in `<cwd>/duplicated_files/`, under
      its own name prefixed by the decimal prefix and an underscore; both
      the prefix and the original name can be read back from the new name. */
  lemma MoveTarget(cwd: Path, prefix: Token, filename: Path)
    ensures Destination(cwd, prefix, filename)
              == MovedFolder(cwd) + Basename(Destination(cwd, prefix, filename))
    ensures PrefixText(Basename(Destination(cwd, prefix, filename))) == DecimalString(prefix)
    ensures OriginalName(Basename(Destination(cwd, prefix, filename))) == Basename(filename)
  {
    var digits := DecimalString(prefix);
    DestinationName(cwd, prefix, filename);
    SplitPrefixed(digits, Basename(filename));
  }

  /** As written, the first file of a group is never the one kept: every
      group of at least two distinct files keeps its second file, so its
      first is removed (or moved). */
  lemma FirstFileDisposed(d: Dict<Digest, Path>, removable: bool, random: nat -> Token)
    requires Disposable(d, 1)
    ensures var out := RemoveDuplicateFiles(d, removable, random);
      && KeptPaths(out.actions) == Originals(d, 1)
      && (forall i :: 0 <= i < |d| ==> Originals(d, 1)[i] != d[i].items[0])
      && out.removedFileNumber == (if removable then |Flatten(d)| - |d| else 0)
  {
    DictDisposal(d, 1, removable, random, 0);
  }

  /** With the rule the comment states, each group keeps its first file and
      disposes of all the others. */
  lemma KeepFirstKeepsFirst(d: Dict<Digest, Path>, removable: bool, random: nat -> Token)
    requires Disposable(d, 0)
    ensures var out := RemoveDuplicateFilesKeepFirst(d, removable, random);
      && KeptPaths(out.actions) == Originals(d, 0)
      && (forall i :: 0 <= i < |d| ==> Originals(d, 0)[i] == d[i].items[0])
      && out.removedFileNumber == (if removable then |Flatten(d)| - |d| else 0)
  {
    DictDisposal(d, 0, removable, random, 0);
  }
}

=== FILE: finder.dfy ===
/** The duplicate finder's pipeline: collect paths, group them by size, drop
    sizes held by one file, hash the rest, keep the digests shared by two or
    more files, write the report, and dispose of all but one file per
    group.  The file system and MD5 are parameters. */
module Finder {
  import opened Seqs
  import opened Paths
  import opened ListDict
  import opened Hashing
  import opened Scan
  import opened Report
  import opened Disposal

  /** What the program learns about files: `os.path.getsize` and the bytes
      `open(path, 'rb').read()` returns. */
  datatype FileSystem = FileSystem(size: Path -> nat, content: Path -> Bytes)

  /** A real file system: a file's size is the length of its content. */
  ghost predicate Consistent(fs: FileSystem) {
    forall p :: fs.size(p) == |fs.content(p)|
  }

  datatype Option<T> = None | Some(value: T)

  /** groupFilesAsSize: every path in the list of its size, lists in input
      order, sizes in order of first appearance. */
  function GroupFilesAsSize(fs: FileSystem, files: seq<Path>): (groups: Dict<nat, Path>)
    ensures UniqueKeys(groups)
    ensures Keys(groups) == Dedup(Image(files, fs.size))
    ensures forall size :: Get(groups, size) == Select(files, fs.size, size)
    ensures forall i, j :: 0 <= i < |groups| && 0 <= j < |groups[i].items| ==>
              fs.size(groups[i].items[j]) == groups[i].key
    ensures forall i :: 0 <= i < |groups| ==> |groups[i].items| > 0
    ensures multiset(Flatten(groups)) == multiset(files)
    ensures |Flatten(groups)| == |files|
  {
    var groups := Bucket(files, fs.size);
    BucketKeyed(files, fs.size);
    BucketLookup(files, fs.size);
    assert |multiset(Flatten(groups))| == |multiset(files)|;
    groups
  }

  /** filterUniqueFileSizes: the size groups with more than one file, in
      order, lists unchanged; a size held by one file cannot be shared. */
  function FilterUniqueFileSizes(groups: Dict<nat, Path>): (candidates: Dict<nat, Path>)
    requires UniqueKeys(groups)
    ensures UniqueKeys(candidates)
    ensures IsSubsequence(candidates, groups)
    ensures forall e :: e in candidates <==> e in groups && |e.items| > 1
    ensures forall size :: Get(candidates, size)
              == if |Get(groups, size)| > 1 then Get(groups, size) else []
    ensures multiset(Flatten(candidates)) <= multiset(Flatten(groups))
  {
    KeepSharedLookup(groups);
    KeepShared(groups)
  }

  /** The digest hashFile computes for a path, with the default chunk size. */
  function DigestOf(fs: FileSystem, md5: Bytes -> Digest, fastHash: bool): Path -> Digest {
    p => FileHash(fs.content(p), fastHash, DefaultBuf, md5)
  }

  /** Fast or full, the digest of a path is the MD5 of its whole content. */
  lemma DigestIsMd5(fs: FileSystem, md5: Bytes -> Digest, fastHash: bool, p: Path)
    ensures DigestOf(fs, md5, fastHash)(p) == md5(fs.content(p))
  {
    FastEqualsFull(fs.content(p), DefaultBuf, md5);
  }

  /** calculateHashValueForFiles: every file of every candidate group, size
      groups in order and files in list order, appended to the list of its
      digest.  No file is added or lost, each sits in exactly the list of its
      own digest, and lists keep traversal order. */
  function CalculateHashValueForFiles(fs: FileSystem, md5: Bytes -> Digest,
                                      candidates: Dict<nat, Path>, fastHash: bool): (hashes: Dict<Digest, Path>)
    ensures UniqueKeys(hashes)
    ensures Keys(hashes) == Dedup(Image(Flatten(candidates), DigestOf(fs, md5, fastHash)))
    ensures forall k :: Get(hashes, k) == Select(Flatten(candidates), DigestOf(fs, md5, fastHash), k)
    ensures forall i, j :: 0 <= i < |hashes| && 0 <= j < |hashes[i].items| ==>
              md5(fs.content(hashes[i].items[j])) == hashes[i].key
    ensures forall i :: 0 <= i < |hashes| ==> |hashes[i].items| > 0
    ensures multiset(Flatten(hashes)) == multiset(Flatten(candidates))
  {
    var digest := DigestOf(fs, md5, fastHash);
    var hashes := Bucket(Flatten(candidates), digest);
    BucketKeyed(Flatten(candidates), digest);
    BucketLookup(Flatten(candidates), digest);
    forall i, j | 0 <= i < |hashes| && 0 <= j < |hashes[i].items|
      ensures md5(fs.content(hashes[i].items[j])) == hashes[i].key
    {
      DigestIsMd5(fs, md5, fastHash, hashes[i].items[j]);
    }
    hashes
  }

  /** What findDuplicateFiles returns, and the text it writes when asked. */
  datatype Found = Found(duplicates: Dict<Digest, Path>, report: Option<string>)

  /** findDuplicateFiles: the digest lists with more than one file, in
      order, lists unchanged, plus the report text when writeFile is set. */
  function FindDuplicateFiles(hashes: Dict<Digest, Path>, writeFile: bool): (found: Found)
    requires UniqueKeys(hashes)
    ensures UniqueKeys(found.duplicates)
    ensures IsSubsequence(found.duplicates, hashes)
    ensures forall e :: e in found.duplicates <==> e in hashes && |e.items| > 1
    ensures forall i :: 0 <= i < |found.duplicates| ==> |found.duplicates[i].items| > 1
    ensures forall k :: Get(found.duplicates, k)
              == if |Get(hashes, k)| > 1 then Get(hashes, k) else []
    ensures found.report.Some? <==> writeFile
    ensures found.report.Some? ==>
              found.report.value == Unlines(ReportLines(found.duplicates))
              && |ReportLines(found.duplicates)| == |Flatten(found.duplicates)| + |found.duplicates|
  {
    KeepSharedLookup(hashes);
    var duplicates := KeepShared(hashes);
    assert forall i :: 0 <= i < |duplicates| ==> duplicates[i] in duplicates;
    ReportIsLines(duplicates);
    Found(duplicates, if writeFile then Some(ReportText(duplicates)) else None)
  }

  /** Everything `run` produces. */
  datatype RunResult = RunResult(files: seq<Path>, found: Found, outcome: Outcome)

  /** `run(directory, extension, fastHash, writeOutputIntoFile,
      removeDuplicates)`, with the walk of the directory, the file system,
      MD5 and the random generator as parameters. */
  function Run(walk: seq<WalkStep>, fs: FileSystem, md5: Bytes -> Digest,
               random: nat -> Token, extension: string, fastHash: bool,
               writeOutputIntoFile: bool, removeDuplicates: bool): (result: RunResult)
    ensures result.files == GetFilePaths(walk, extension)
    ensures forall i :: 0 <= i < |result.found.duplicates| ==>
              |result.found.duplicates[i].items| > 1
  {
    var files := GetFilePaths(walk, extension);
    var groups := GroupFilesAsSize(fs, files);
    var candidates := FilterUniqueFileSizes(groups);
    var hashes := CalculateHashValueForFiles(fs, md5, candidates, fastHash);
    var found := FindDuplicateFiles(hashes, writeOutputIntoFile);
    RunResult(files, found, RemoveDuplicateFiles(found.duplicates, removeDuplicates, random))
  }

  /** The duplicate groups of a run, for the lemmas below. */
  function Duplicates(fs: FileSystem, md5: Bytes -> Digest, files: seq<Path>, fastHash: bool): Dict<Digest, Path> {
    var candidates := FilterUniqueFileSizes(GroupFilesAsSize(fs, files));
    FindDuplicateFiles(CalculateHashValueForFiles(fs, md5, candidates, fastHash), false).duplicates
  }

  /** Two different values found in a sequence make it at least two long. */
  lemma TwoMembers<T>(s: seq<T>, p: T, q: T)
    requires p in s && q in s && p != q
    ensures |s| >= 2
  {
    var i :| 0 <= i < |s| && s[i] == p;
    var j :| 0 <= j < |s| && s[j] == q;
    assert i != j;
  }

  /** The pipeline's stages for one list of files. */
  datatype Stages = Stages(groups: Dict<nat, Path>, candidates: Dict<nat, Path>,
                           hashes: Dict<Digest, Path>, duplicates: Dict<Digest, Path>)

  function Pipeline(fs: FileSystem, md5: Bytes -> Digest, files: seq<Path>, fastHash: bool): (st: Stages)
    ensures st.duplicates == Duplicates(fs, md5, files, fastHash)
    ensures st.groups == GroupFilesAsSize(fs, files)
    ensures UniqueKeys(st.groups)
    ensures st.candidates == FilterUniqueFileSizes(st.groups)
    ensures st.hashes == CalculateHashValueForFiles(fs, md5, st.candidates, fastHash)
    ensures UniqueKeys(st.hashes)
    ensures st.duplicates == FindDuplicateFiles(st.hashes, false).duplicates
  {
    var groups := GroupFilesAsSize(fs, files);
    var candidates := FilterUniqueFileSizes(groups);
    var hashes := CalculateHashValueForFiles(fs, md5, candidates, fastHash);
    Stages(groups, candidates, hashes, FindDuplicateFiles(hashes, false).duplicates)
  }

  /** Keeping the shared digest lists keeps every list's files under their
      own digest, and every kept list has at least two files. */
  lemma SharedGroupsSound(fs: FileSystem, md5: Bytes -> Digest, hashes: Dict<Digest, Path>)
    requires UniqueKeys(hashes)
    requires forall i, j :: 0 <= i < |hashes| && 0 <= j < |hashes[i].items| ==>
               md5(fs.content(hashes[i].items[j])) == hashes[i].key
    ensures forall i :: 0 <= i < |FindDuplicateFiles(hashes, false).duplicates| ==>
              |FindDuplicateFiles(hashes, false).duplicates[i].items| > 1
    ensures forall i, j | 0 <= i < |FindDuplicateFiles(hashes, false).duplicates|
              && 0 <= j < |FindDuplicateFiles(hashes, false).duplicates[i].items| ::
              md5(fs.content(FindDuplicateFiles(hashes, false).duplicates[i].items[j]))
                == FindDuplicateFiles(hashes, false).duplicates[i].key
  {
    var dups := FindDuplicateFiles(hashes, false).duplicates;
    forall i | 0 <= i < |dups|
      ensures |dups[i].items| > 1
      ensures forall j :: 0 <= j < |dups[i].items| ==> md5(fs.content(dups[i].items[j])) == dups[i].key
    {
      assert dups[i] in dups;
      var h :| 0 <= h < |hashes| && hashes[h] == dups[i];
    }
  }

  /** Soundness: every duplicate group holds two or more files, all of them
      with the group's digest, the MD5 of their content. */
  lemma DuplicatesSound(fs: FileSystem, md5: Bytes -> Digest, files: seq<Path>, fastHash: bool)
    ensures forall i :: 0 <= i < |Duplicates(fs, md5, files, fastHash)| ==>
              |Duplicates(fs, md5, files, fastHash)[i].items| > 1
    ensures forall i, j | 0 <= i < |Duplicates(fs, md5, files, fastHash)|
              && 0 <= j < |Duplicates(fs, md5, files, fastHash)[i].items| ::
              md5(fs.content(Duplicates(fs, md5, files, fastHash)[i].items[j]))
                == Duplicates(fs, md5, files, fastHash)[i].key
  {
    var st := Pipeline(fs, md5, files, fastHash);
    SharedGroupsSound(fs, md5, st.hashes);
  }

  /** No file is invented: the duplicate groups together hold each file at
      most as often as the scan listed it. */
  lemma DuplicatesFromFiles(fs: FileSystem, md5: Bytes -> Digest, files: seq<Path>, fastHash: bool)
    ensures UniqueKeys(Duplicates(fs, md5, files, fastHash))
    ensures multiset(Flatten(Duplicates(fs, md5, files, fastHash))) <= multiset(files)
  {
    var st := Pipeline(fs, md5, files, fastHash);
    assert multiset(Flatten(st.duplicates)) <= multiset(Flatten(st.hashes));
    assert multiset(Flatten(st.hashes)) == multiset(Flatten(st.candidates));
    assert multiset(Flatten(st.candidates)) <= multiset(Flatten(st.groups));
    assert multiset(Flatten(st.groups)) == multiset(files);
  }

  /** Completeness: on a real file system, two different scanned paths with
      the same content both land in the duplicate group of their MD5,
      whatever their names or directories. */
  lemma DuplicatesComplete(fs: FileSystem, md5: Bytes -> Digest, files: seq<Path>, fastHash: bool,
                           p: Path, q: Path)
    requires Consistent(fs)
    requires p in files && q in files && p != q
    requires fs.content(p) == fs.content(q)
    ensures var dups := Duplicates(fs, md5, files, fastHash);
      p in Get(dups, md5(fs.content(p))) && q in Get(dups, md5(fs.content(p)))
  {
    var size := fs.size(p);
    var groups := GroupFilesAsSize(fs, files);
    var candidates := FilterUniqueFileSizes(groups);
    assert fs.size(q) == size;
    assert p in Get(groups, size) && q in Get(groups, size);
    TwoMembers(Get(groups, size), p, q);
    assert p in Get(candidates, size) && q in Get(candidates, size);
    GetInFlatten(candidates, size, p);
    GetInFlatten(candidates, size, q);
    var digest := DigestOf(fs, md5, fastHash);
    var hashes := CalculateHashValueForFiles(fs, md5, candidates, fastHash);
    var k := md5(fs.content(p));
    DigestIsMd5(fs, md5, fastHash, p);
    DigestIsMd5(fs, md5, fastHash, q);
    assert p in Get(hashes, k) && q in Get(hashes, k);
    TwoMembers(Get(hashes, k), p, q);
  }

  /** When the scan lists no path twice, as os.walk never does, no duplicate
      group lists a file twice, so removeDuplicateFiles finds each file's own
      position with list.index and leaves exactly one path per group untouched. */
  lemma DuplicatesDisposable(fs: FileSystem, md5: Bytes -> Digest, files: seq<Path>, fastHash: bool)
    requires Distinct(files)
    ensures Disposable(Duplicates(fs, md5, files, fastHash), 1)
  {
    var dups := Duplicates(fs, md5, files, fastHash);
    DuplicatesSound(fs, md5, files, fastHash);
    DuplicatesFromFiles(fs, md5, files, fastHash);
    DistinctSubMultiset(Flatten(dups), files);
    FlattenDistinct(dups);
  }

  /** A whole run: every file of every duplicate group gets exactly one
      action, in report order; the file at list index 1 of each group is the
      one kept; with removal on the printed count is the number of files
      minus the number of groups, and with removal off it is 0 and one
      random prefix is drawn per moved file. */
  lemma RunDisposal(walk: seq<WalkStep>, fs: FileSystem, md5: Bytes -> Digest,
                    random: nat -> Token, extension: string, fastHash: bool,
                    writeOutputIntoFile: bool, removeDuplicates: bool)
    requires Distinct(GetFilePaths(walk, extension))
    ensures var r := Run(walk, fs, md5, random, extension, fastHash,
                          writeOutputIntoFile, removeDuplicates);
      && Disposable(r.found.duplicates, 1)
      && ActionPaths(r.outcome.actions) == Flatten(r.found.duplicates)
      && KeptPaths(r.outcome.actions) == Originals(r.found.duplicates, 1)
      && r.outcome.removedFileNumber
           == (if removeDuplicates then |Flatten(r.found.duplicates)| - |r.found.duplicates| else 0)
  {
    var files := GetFilePaths(walk, extension);
    var r := Run(walk, fs, md5, random, extension, fastHash, writeOutputIntoFile, removeDuplicates);
    assert r.found.duplicates == Duplicates(fs, md5, files, fastHash);
    DuplicatesDisposable(fs, md5, files, fastHash);
    DictPaths(r.found.duplicates, 1, removeDuplicates, random, 0);
    DictDisposal(r.found.duplicates, 1, removeDuplicates, random, 0);
  }

  /** `run` with the keep rule corrected to the one removeDuplicateFiles's
      comment states: the first file of each group is the original. */
  function RunKeepFirst(walk: seq<WalkStep>, fs: FileSystem, md5: Bytes -> Digest,
                        random: nat -> Token, extension: string, fastHash: bool,
                        writeOutputIntoFile: bool, removeDuplicates: bool): (result: RunResult)
    ensures result.files == Run(walk, fs, md5, random, extension, fastHash,
                                writeOutputIntoFile, removeDuplicates).files
    ensures result.found == Run(walk, fs, md5, random, extension, fastHash,
                                writeOutputIntoFile, removeDuplicates).found
  {
    var r := Run(walk, fs, md5, random, extension, fastHash, writeOutputIntoFile, removeDuplicates);
    r.(outcome := RemoveDuplicateFilesKeepFirst(r.found.duplicates, removeDuplicates, random))
  }

  /** With the corrected rule a run keeps the first file of every duplicate
      group and disposes of all the others, every file getting one action. */
  lemma RunKeepFirstDisposal(walk: seq<WalkStep>, fs: FileSystem, md5: Bytes -> Digest,
                             random: nat -> Token, extension: string, fastHash: bool,
                             writeOutputIntoFile: bool, removeDuplicates: bool)
    requires Distinct(GetFilePaths(walk, extension))
    ensures var r := RunKeepFirst(walk, fs, md5, random, extension, fastHash,
                          writeOutputIntoFile, removeDuplicates);
      && Disposable(r.found.duplicates, 0)
      && ActionPaths(r.outcome.actions) == Flatten(r.found.duplicates)
      && KeptPaths(r.outcome.actions) == Originals(r.found.duplicates, 0)
      && r.outcome.removedFileNumber
           == (if removeDuplicates then |Flatten(r.found.duplicates)| - |r.found.duplicates| else 0)
  {
    var files := GetFilePaths(walk, extension);
    var r := RunKeepFirst(walk, fs, md5, random, extension, fastHash, writeOutputIntoFile, removeDuplicates);
    var d := r.found.duplicates;
    assert d == Duplicates(fs, md5, files, fastHash);
    assert r.outcome == RemoveDuplicateFilesKeepFirst(d, removeDuplicates, random);
    DuplicatesDisposable(fs, md5, files, fastHash);
    assert Disposable(d, 0);
    DictPaths(d, 0, removeDuplicates, random, 0);
    DictDisposal(d, 0, removeDuplicates, random, 0);
  }

  /** MD5 text holds neither a tab nor a newline (hexdigest is hex digits). */
  ghost predicate PlainDigests(md5: Bytes -> Digest) {
    forall b :: '\t' !in md5(b) && '\n' !in md5(b)
  }

  /** With such digests, and no scanned path holding a newline, the report
      of the duplicate groups can be read back. */
  lemma DuplicatesReadable(fs: FileSystem, md5: Bytes -> Digest, files: seq<Path>, fastHash: bool)
    requires PlainDigests(md5)
    requires forall p :: p in files ==> '\n' !in p
    ensures Readable(Duplicates(fs, md5, files, fastHash))
  {
    var dups := Duplicates(fs, md5, files, fastHash);
    DuplicatesSound(fs, md5, files, fastHash);
    DuplicatesFromFiles(fs, md5, files, fastHash);
    forall i | 0 <= i < |dups|
      ensures |dups[i].items| > 0 && '\t' !in dups[i].key && '\n' !in dups[i].key
      ensures forall j :: 0 <= j < |dups[i].items| ==> '\n' !in dups[i].items[j]
    {
      assert dups[i].key == md5(fs.content(dups[i].items[0]));
      forall j | 0 <= j < |dups[i].items| ensures '\n' !in dups[i].items[j] {
        var x := dups[i].items[j];
        FlattenHas(dups, i, j);
        assert multiset(Flatten(dups))[x] > 0;
      }
    }
  }

  /** When no scanned path holds a newline, the report a run writes reads
      back as the run's duplicate groups. */
  lemma RunReportReadsBack(walk: seq<WalkStep>, fs: FileSystem, md5: Bytes -> Digest,
                           random: nat -> Token, extension: string, fastHash: bool,
                           removeDuplicates: bool)
    requires PlainDigests(md5)
    requires forall p :: p in GetFilePaths(walk, extension) ==> '\n' !in p
    ensures Run(walk, fs, md5, random, extension, fastHash, true, removeDuplicates).found.report.Some?
    ensures ParseReport(Run(walk, fs, md5, random, extension, fastHash, true,
                            removeDuplicates).found.report.value)
              == Run(walk, fs, md5, random, extension, fastHash, true, removeDuplicates).found.duplicates
  {
    var files := GetFilePaths(walk, extension);
    var dups := Run(walk, fs, md5, random, extension, fastHash, true, removeDuplicates).found.duplicates;
    assert dups == Duplicates(fs, md5, files, fastHash);
    DuplicatesReadable(fs, md5, files, fastHash);
    ReportRoundTrip(dups);
  }
}

=== FILE: hashing.dfy ===
/** hashFile: the MD5 digest of a file's content, fed to the hasher either in
    fixed-size chunks (fast mode) or in one piece (full mode).  MD5 itself is
    a parameter: all the model relies on is that a streaming hasher's digest
    depends only on the concatenation of the bytes fed to it. */
module Hashing {

  type Bytes = seq<bv8>

  /** `hexdigest()` text. */
  type Digest = string

  /** The default `buf` of hashFile: 1 MiB. */
  const DefaultBuf: int := 1024 * 1024

  /** A `hashlib.md5()` object, modelled by everything fed to it so far. */
  datatype Hasher = Hasher(fed: Bytes)

  function NewHasher(): Hasher {
    Hasher([])
  }

  /** `hasher.update(chunk)`. */
  function Update(h: Hasher, chunk: Bytes): Hasher {
    Hasher(h.fed + chunk)
  }

  /** `hasher.hexdigest()`, given MD5 on whole byte strings. */
  function HexDigest(h: Hasher, md5: Bytes -> Digest): Digest {
    md5(h.fed)
  }

  /** `file.read(n)` on a binary file positioned at pos: a negative n reads
      to the end; otherwise at most n bytes, fewer only at the end of the
      file, and nothing once the end is reached. */
  function Read(content: Bytes, pos: nat, n: int): (chunk: Bytes)
    requires pos <= |content|
    ensures pos + |chunk| <= |content|
    ensures chunk == content[pos..pos + |chunk|]
    ensures n < 0 ==> pos + |chunk| == |content|
    ensures n >= 0 ==> |chunk| == if pos + n <= |content| then n else |content| - pos
  {
    if n < 0 || pos + n > |content| then content[pos..] else content[pos..pos + n]
  }

  /** The chunks the fast-mode loop feeds to the hasher, starting at pos:
      read, stop at the first empty chunk. */
  function Chunks(content: Bytes, pos: nat, buf: int): (cs: seq<Bytes>)
    requires pos <= |content|
    ensures forall i :: 0 <= i < |cs| ==> |cs[i]| > 0
    ensures buf > 0 ==> forall i :: 0 <= i < |cs| - 1 ==> |cs[i]| == buf
    ensures buf == 0 ==> cs == []
    decreases |content| - pos
  {
    var c := Read(content, pos, buf);
    if |c| == 0 then [] else [c] + Chunks(content, pos + |c|, buf)
  }

  /** The chunks laid end to end. */
  function Concat(cs: seq<Bytes>): Bytes {
    if |cs| == 0 then [] else cs[0] + Concat(cs[1..])
  }

  /** `for chunk in cs: hasher.update(chunk)`. */
  function FeedAll(h: Hasher, cs: seq<Bytes>): (h': Hasher)
    ensures h'.fed == h.fed + Concat(cs)
    decreases |cs|
  {
    if |cs| == 0 then h
    else
      assert h.fed + cs[0] + Concat(cs[1..]) == h.fed + Concat(cs);
      FeedAll(Update(h, cs[0]), cs[1..])
  }

  /** Every byte from pos to the end of the file is read exactly once, in
      order, unless buf is 0, when the first read is empty and the loop stops
      at once. */
  lemma {:induction false} ChunksCover(content: Bytes, pos: nat, buf: int)
    requires pos <= |content|
    ensures Concat(Chunks(content, pos, buf)) == if buf == 0 then [] else content[pos..]
    decreases |content| - pos
  {
    var c := Read(content, pos, buf);
    if |c| > 0 {
      var rest := Chunks(content, pos + |c|, buf);
      assert Chunks(content, pos, buf) == [c] + rest;
      assert Concat([c] + rest) == c + Concat(rest) by {
        assert ([c] + rest)[1..] == rest;
      }
      ChunksCover(content, pos + |c|, buf);
      assert content[pos..] == c + content[pos + |c|..];
    } else if buf != 0 {
      assert pos == |content|;
    }
  }

  /** hashFile as a function: the digest of what the chosen mode feeds. */
  function FileHash(content: Bytes, fastHash: bool, buf: int, md5: Bytes -> Digest): Digest {
    if fastHash then HexDigest(FeedAll(NewHasher(), Chunks(content, 0, buf)), md5)
    else HexDigest(Update(NewHasher(), Read(content, 0, -1)), md5)
  }

  /** Fast and full mode give the same digest, the MD5 of the whole content,
      for every non-zero chunk size. */
  lemma FastEqualsFull(content: Bytes, buf: int, md5: Bytes -> Digest)
    requires buf != 0
    ensures FileHash(content, true, buf, md5) == FileHash(content, false, buf, md5)
    ensures FileHash(content, false, buf, md5) == md5(content)
  {
    ChunksCover(content, 0, buf);
    assert Read(content, 0, -1) == content[0..] == content;
    assert Update(NewHasher(), content).fed == [] + content == content;
  }

  /** hashFile with its read loop.  The loop ends for every buf (each turn
      reads at least one byte) and feeds the hasher exactly the chunk
      sequence Chunks describes, which is the whole content unless buf is 0. */
  method HashFile(content: Bytes, fastHash: bool, buf: int, md5: Bytes -> Digest)
    returns (digest: Digest)
    ensures digest == FileHash(content, fastHash, buf, md5)
    ensures !fastHash || buf != 0 ==> digest == md5(content)
    ensures fastHash && buf == 0 ==> digest == md5([])
  {
    var hasher := NewHasher();
    if fastHash {
      var pos: nat := 0;
      var chunk := Read(content, pos, buf);
      while |chunk| > 0
        invariant pos <= |content|
        invariant hasher.fed == content[..pos]
        invariant chunk == Read(content, pos, buf)
        invariant buf == 0 ==> pos == 0
        decreases |content| - pos
      {
        hasher := Update(hasher, chunk);
        pos := pos + |chunk|;
        chunk := Read(content, pos, buf);
      }
      ChunksCover(content, 0, buf);
      var fed := Concat(Chunks(content, 0, buf));
      assert FeedAll(NewHasher(), Chunks(content, 0, buf)).fed == [] + fed == fed;
      if buf != 0 {
        assert pos == |content|;
        assert hasher.fed == content[..|content|] == content == fed;
      } else {
        assert hasher.fed == [] == fed;
      }
    } else {
      var whole := Read(content, 0, -1);
      assert whole == content[0..] == content;
      hasher := Update(hasher, whole);
      assert hasher.fed == [] + content == content;
    }
    digest := HexDigest(hasher, md5);
  }
}

=== FILE: listdict.dfy ===
/** Python dicts whose values are lists, as the finder builds them: an
    insertion-ordered association list.  Iterating a Python dict visits keys
    in insertion order, and which file of a group comes first or second
    depends on that order, so the order is part of the model. */
module ListDict {
  import opened Seqs

  /** One key of the dict with the list stored under it. */
  datatype Entry<K, V> = Entry(key: K, items: seq<V>)

  type Dict<K, V> = seq<Entry<K, V>>

  /** The keys in iteration (insertion) order. */
  function Keys<K(==,!new), V(==,!new)>(d: Dict<K, V>): (ks: seq<K>)
    ensures |ks| == |d|
    ensures forall i :: 0 <= i < |d| ==> ks[i] == d[i].key
  {
    if |d| == 0 then [] else [d[0].key] + Keys(d[1..])
  }

  /** A real dict never holds a key twice. */
  predicate UniqueKeys<K(==,!new), V(==,!new)>(d: Dict<K, V>) {
    Distinct(Keys(d))
  }

  /** `d.get(k, [])`. */
  function Get<K(==,!new), V(==,!new)>(d: Dict<K, V>, k: K): seq<V> {
    if |d| == 0 then []
    else if d[0].key == k then d[0].items
    else Get(d[1..], k)
  }

  /** Every list of the dict, concatenated in iteration order: the order in
      which a nested `for key in d: for x in d[key]` visits the values. */
  function Flatten<K(==,!new), V(==,!new)>(d: Dict<K, V>): seq<V> {
    if |d| == 0 then [] else d[0].items + Flatten(d[1..])
  }

  /** A dict whose values, all lists together, hold no value twice has no
      list holding a value twice. */
  lemma {:induction false} FlattenDistinct<K(!new), V(!new)>(d: Dict<K, V>)
    requires Distinct(Flatten(d))
    ensures forall i :: 0 <= i < |d| ==> Distinct(d[i].items)
  {
    if |d| > 0 {
      var a := d[0].items;
      var b := Flatten(d[1..]);
      assert Flatten(d) == a + b;
      assert forall i :: 0 <= i < |b| ==> b[i] == (a + b)[|a| + i];
      assert Distinct(b);
      assert forall i :: 0 <= i < |a| ==> a[i] == (a + b)[i];
      assert Distinct(a);
      FlattenDistinct(d[1..]);
      forall i | 0 <= i < |d| ensures Distinct(d[i].items) {
        if i > 0 {
          assert d[i] == d[1..][i - 1];
        }
      }
    }
  }

  /** `if k in d.keys(): d[k].append(v) else: d[k] = []; d[k].append(v)`:
      an existing key keeps its place and grows by v at the end; a new key is
      added last with the one-element list [v]. */
  function Append<K(==,!new), V(==,!new)>(d: Dict<K, V>, k: K, v: V): (r: Dict<K, V>)
    ensures Keys(r) == if k in Keys(d) then Keys(d) else Keys(d) + [k]
    ensures multiset(Flatten(r)) == multiset(Flatten(d)) + multiset{v}
  {
    if |d| == 0 then [Entry(k, [v])]
    else if d[0].key == k then [Entry(k, d[0].items + [v])] + d[1..]
    else [d[0]] + Append(d[1..], k, v)
  }

  /** Appending v under k lengthens k's list by v and leaves every other
      key's list as it was. */
  lemma {:induction false} AppendGet<K(!new), V(!new)>(d: Dict<K, V>, k: K, v: V, k': K)
    ensures Get(Append(d, k, v), k') == if k' == k then Get(d, k) + [v] else Get(d, k')
  {
    if |d| > 0 && d[0].key != k {
      AppendGet(d[1..], k, v, k');
    }
  }

  /** Appending never creates an empty list. */
  lemma {:induction false} AppendNonEmpty<K(!new), V(!new)>(d: Dict<K, V>, k: K, v: V)
    requires forall i :: 0 <= i < |d| ==> |d[i].items| > 0
    ensures forall i :: 0 <= i < |Append(d, k, v)| ==> |Append(d, k, v)[i].items| > 0
  {
    if |d| > 0 && d[0].key != k {
      AppendNonEmpty(d[1..], k, v);
    }
  }

  /** Build a dict by visiting s in order and appending each x under f(x);
      both groupFilesAsSize (f = file size) and calculateHashValueForFiles
      (f = digest) are this loop. */
  function Bucket<K(==,!new), V(==,!new)>(s: seq<V>, f: V -> K): (r: Dict<K, V>)
    ensures Keys(r) == Dedup(Image(s, f))
    ensures UniqueKeys(r)
    ensures forall i :: 0 <= i < |r| ==> |r[i].items| > 0
    ensures multiset(Flatten(r)) == multiset(s)
  {
    if |s| == 0 then []
    else
      var init := s[..|s| - 1];
      var last := s[|s| - 1];
      assert s == init + [last];
      assert Image(s, f)[..|s| - 1] == Image(init, f);
      var r0 := Bucket(init, f);
      AppendNonEmpty(r0, f(last), last);
      Append(r0, f(last), last)
  }

  /** The list of Bucket(s, f) under k holds exactly the values x of s with
      f(x) == k, in their order in s. */
  lemma {:induction false} BucketGet<K(!new), V(!new)>(s: seq<V>, f: V -> K, k: K)
    ensures Get(Bucket(s, f), k) == Select(s, f, k)
  {
    if |s| > 0 {
      var init := s[..|s| - 1];
      var last := s[|s| - 1];
      BucketGet(init, f, k);
      AppendGet(Bucket(init, f), f(last), last, k);
    }
  }

  /** The same, for every key at once. */
  lemma BucketLookup<K(!new), V(!new)>(s: seq<V>, f: V -> K)
    ensures forall k :: Get(Bucket(s, f), k) == Select(s, f, k)
  {
    forall k ensures Get(Bucket(s, f), k) == Select(s, f, k) {
      BucketGet(s, f, k);
    }
  }

  /** In a dict without repeated keys, looking up an entry's key finds that
      entry's list. */
  lemma {:induction false} GetAt<K(!new), V(!new)>(d: Dict<K, V>, i: int)
    requires UniqueKeys(d) && 0 <= i < |d|
    ensures Get(d, d[i].key) == d[i].items
  {
    if i > 0 {
      assert Keys(d)[0] != Keys(d)[i];
      assert UniqueKeys(d[1..]) by {
        forall a, b | 0 <= a < b < |d[1..]| ensures Keys(d[1..])[a] != Keys(d[1..])[b] {
          assert Keys(d)[a + 1] != Keys(d)[b + 1];
        }
      }
      GetAt(d[1..], i - 1);
    }
  }

  /** A value stored under some key is one of the flattened values. */
  lemma {:induction false} GetInFlatten<K(!new), V(!new)>(d: Dict<K, V>, k: K, x: V)
    requires x in Get(d, k)
    ensures x in Flatten(d)
  {
    if d[0].key != k {
      GetInFlatten(d[1..], k, x);
    }
  }

  lemma {:induction false} FlattenHas<K(!new), V(!new)>(d: Dict<K, V>, i: int, j: int)
    requires 0 <= i < |d| && 0 <= j < |d[i].items|
    ensures d[i].items[j] in Flatten(d)
  {
    if i > 0 {
      FlattenHas(d[1..], i - 1, j);
    } else {
      assert Flatten(d)[j] == d[0].items[j];
    }
  }

  /** Every value of s lands in exactly one list of Bucket(s, f): the one
      whose key is f(x). */
  lemma BucketPartition<K(!new), V(!new)>(s: seq<V>, f: V -> K, x: V)
    requires x in s
    ensures f(x) in Keys(Bucket(s, f))
    ensures forall i :: 0 <= i < |Bucket(s, f)| ==>
              (x in Bucket(s, f)[i].items <==> Bucket(s, f)[i].key == f(x))
  {
    var r := Bucket(s, f);
    BucketLookup(s, f);
    forall i | 0 <= i < |r|
      ensures x in r[i].items <==> r[i].key == f(x)
    {
      GetAt(r, i);
    }
  }

  /** Every value in the list of Bucket(s, f) under k has f-image k. */
  lemma BucketKeyed<K(!new), V(!new)>(s: seq<V>, f: V -> K)
    ensures forall i, j :: 0 <= i < |Bucket(s, f)| && 0 <= j < |Bucket(s, f)[i].items| ==>
              f(Bucket(s, f)[i].items[j]) == Bucket(s, f)[i].key
  {
    var r := Bucket(s, f);
    BucketLookup(s, f);
    forall i, j | 0 <= i < |r| && 0 <= j < |r[i].items|
      ensures f(r[i].items[j]) == r[i].key
    {
      GetAt(r, i);
      assert r[i].items[j] in Select(s, f, r[i].key);
    }
  }

  /** The entries whose list has more than one element, in their order:
      filterUniqueFileSizes and the first loop of findDuplicateFiles. */
  function KeepShared<K(==,!new), V(==,!new)>(d: Dict<K, V>): (r: Dict<K, V>)
    ensures forall e :: e in r <==> e in d && |e.items| > 1
    ensures IsSubsequence(r, d)
    ensures multiset(Flatten(r)) <= multiset(Flatten(d))
  {
    if |d| == 0 then []
    else if |d[0].items| > 1 then [d[0]] + KeepShared(d[1..])
    else KeepShared(d[1..])
  }

  /** On a real dict, the filtered dict is again a dict, and a key holds the
      same list as before if that list has two or more elements and is absent
      otherwise. */
  lemma {:induction false} KeepSharedLookup<K(!new), V(!new)>(d: Dict<K, V>)
    requires UniqueKeys(d)
    ensures UniqueKeys(KeepShared(d))
    ensures forall k :: k in Keys(KeepShared(d)) ==> k in Keys(d)
    ensures forall k :: Get(KeepShared(d), k) == if |Get(d, k)| > 1 then Get(d, k) else []
  {
    if |d| > 0 {
      var rest := d[1..];
      assert UniqueKeys(rest) by {
        forall a, b | 0 <= a < b < |rest| ensures Keys(rest)[a] != Keys(rest)[b] {
          assert Keys(d)[a + 1] != Keys(d)[b + 1];
        }
      }
      KeepSharedLookup(rest);
      assert d[0].key !in Keys(rest) by {
        forall j | 0 <= j < |rest| ensures Keys(rest)[j] != d[0].key {
          assert Keys(d)[0] != Keys(d)[j + 1];
        }
      }
      var r := KeepShared(d);
      forall k ensures Get(r, k) == if |Get(d, k)| > 1 then Get(d, k) else [] {
        if k != d[0].key {
        } else {
          assert Get(rest, k) == [] by {
            GetAbsent(rest, k);
          }
        }
      }
    }
  }

  /** A key the dict does not hold has the empty list. */
  lemma {:induction false} GetAbsent<K(!new), V(!new)>(d: Dict<K, V>, k: K)
    requires k !in Keys(d)
    ensures Get(d, k) == []
  {
    if |d| > 0 {
      assert Keys(d)[0] == d[0].key;
      assert k !in Keys(d[1..]) by {
        assert forall j :: 0 <= j < |d[1..]| ==> Keys(d[1..])[j] == Keys(d)[j + 1];
      }
      GetAbsent(d[1..], k);
    }
  }

  /** Dropping the small lists a second time drops nothing more. */
  lemma {:induction false} KeepSharedIdempotent<K(!new), V(!new)>(d: Dict<K, V>)
    ensures KeepShared(KeepShared(d)) == KeepShared(d)
  {
    if |d| > 0 {
      KeepSharedIdempotent(d[1..]);
    }
  }
}

=== FILE: paths.dfy ===
/** Path strings as the finder builds and takes them apart: POSIX joining and
    splitting, the suffix test of the extension filter, and the decimal text
    of the random prefix given to moved files. */
module Paths {

  type Path = string

  /** os.sep on a POSIX system. */
  const Sep: char := '/'

  /** `filename.endswith(suffix)`: case-sensitive, and every string ends with
      the empty suffix. */
  predicate EndsWith(s: string, suffix: string) {
    |suffix| <= |s| && s[|s| - |suffix|..] == suffix
  }

  /** `os.path.join(root, name)` for two components (posixpath): an absolute
      name replaces the root, otherwise one separator is inserted unless the
      root is empty or already ends with one. */
  function Join(root: Path, name: Path): (p: Path)
    ensures EndsWith(p, name)
  {
    if |name| > 0 && name[0] == Sep then name
    else if |root| == 0 || root[|root| - 1] == Sep then root + name
    else root + [Sep] + name
  }

  /** The tail of `os.path.split(p)`: everything after the last separator. */
  function Basename(p: Path): (name: Path)
    ensures Sep !in name
    ensures EndsWith(p, name)
    ensures |name| < |p| ==> p[|p| - |name| - 1] == Sep
  {
    if |p| == 0 || p[|p| - 1] == Sep then []
    else Basename(p[..|p| - 1]) + [p[|p| - 1]]
  }

  /** The longest separator-free suffix is unique: a suffix without
      separators that follows a separator (or is the whole path) is the
      basename. */
  lemma {:induction false} BasenameUnique(p: Path, name: Path)
    requires Sep !in name
    requires EndsWith(p, name)
    requires |name| < |p| ==> p[|p| - |name| - 1] == Sep
    ensures Basename(p) == name
  {
    if |p| == 0 {
    } else if p[|p| - 1] == Sep {
      assert |name| == 0;
    } else {
      var q := p[..|p| - 1];
      assert |name| > 0;
      var m := name[..|name| - 1];
      assert Sep !in m;
      assert EndsWith(q, m) by {
        assert q[|q| - |m|..] == p[|p| - |name|..|p| - 1];
      }
      assert |m| < |q| ==> q[|q| - |m| - 1] == Sep;
      BasenameUnique(q, m);
      assert name == m + [p[|p| - 1]];
    }
  }

  /** Splitting a joined path gives back the file name that was joined, so
      `os.path.split(os.path.join(root, name))[1] == name` for every name
      os.walk can list. */
  lemma BasenameOfJoin(root: Path, name: Path)
    requires Sep !in name
    ensures Basename(Join(root, name)) == name
  {
    var p := Join(root, name);
    if |name| < |p| {
      assert p[|p| - |name| - 1] == Sep;
    }
    BasenameUnique(p, name);
  }

  function DigitChar(d: nat): (c: char)
    requires d < 10
    ensures '0' <= c <= '9'
  {
    (48 + d) as char
  }

  function DigitValue(c: char): nat
    requires '0' <= c <= '9'
  {
    c as int - 48
  }

  /** `str(n)` for a natural number: decimal digits, no leading zero. */
  function DecimalString(n: nat): (s: string)
    ensures |s| >= 1
    ensures forall i :: 0 <= i < |s| ==> '0' <= s[i] <= '9'
    ensures s[0] == '0' ==> n == 0
    decreases n
  {
    if n < 10 then [DigitChar(n)]
    else DecimalString(n / 10) + [DigitChar(n % 10)]
  }

  /** `int(s)` for a string of decimal digits. */
  function ParseDecimal(s: string): nat
    requires forall i :: 0 <= i < |s| ==> '0' <= s[i] <= '9'
  {
    if |s| == 0 then 0
    else 10 * ParseDecimal(s[..|s| - 1]) + DigitValue(s[|s| - 1])
  }

  /** The decimal text of a number reads back as that number. */
  lemma {:induction false} DecimalRoundTrip(n: nat)
    ensures ParseDecimal(DecimalString(n)) == n
    decreases n
  {
    if n >= 10 {
      var s := DecimalString(n);
      assert s[..|s| - 1] == DecimalString(n / 10);
      DecimalRoundTrip(n / 10);
    }
  }
}

=== FILE: report.dfy ===
/** The text findDuplicateFiles writes into duplicateFileList.txt: one line
    `digest TAB path` per file of each duplicate group, and an empty line
    after each group.  Writing the file is I/O; the model is the text. */
module Report {
  import opened Seqs
  import opened ListDict
  import opened Paths
  import opened Hashing

  /** The text of one group, as the inner write loop produces it. */
  function GroupText(key: Digest, items: seq<Path>): string {
    if |items| == 0 then ""
    else key + "\t" + items[0] + "\n" + GroupText(key, items[1..])
  }

  /** The whole file: every group's text followed by one more newline. */
  function ReportText(d: Dict<Digest, Path>): string {
    if |d| == 0 then ""
    else GroupText(d[0].key, d[0].items) + "\n" + ReportText(d[1..])
  }

  /** One file line without its terminator. */
  function FileLine(key: Digest, path: Path): string {
    key + "\t" + path
  }

  function FileLines(key: Digest, items: seq<Path>): (ls: seq<string>)
    ensures |ls| == |items|
    ensures forall j :: 0 <= j < |items| ==> ls[j] == FileLine(key, items[j])
  {
    if |items| == 0 then [] else [FileLine(key, items[0])] + FileLines(key, items[1..])
  }

  /** The report's lines without terminators: each group's file lines and
      then one empty line. */
  function ReportLines(d: Dict<Digest, Path>): (ls: seq<string>)
    ensures |ls| == |Flatten(d)| + |d|
  {
    if |d| == 0 then []
    else FileLines(d[0].key, d[0].items) + [""] + ReportLines(d[1..])
  }

  /** Every line followed by a newline. */
  function Unlines(ls: seq<string>): string {
    if |ls| == 0 then "" else ls[0] + "\n" + Unlines(ls[1..])
  }

  lemma {:induction false} UnlinesAppend(a: seq<string>, b: seq<string>)
    ensures Unlines(a + b) == Unlines(a) + Unlines(b)
  {
    if |a| > 0 {
      assert (a + b)[1..] == a[1..] + b;
      UnlinesAppend(a[1..], b);
    } else {
      assert a + b == b;
    }
  }

  lemma {:induction false} GroupTextIsLines(key: Digest, items: seq<Path>)
    ensures GroupText(key, items) == Unlines(FileLines(key, items))
  {
    if |items| > 0 {
      GroupTextIsLines(key, items[1..]);
    }
  }

  /** The report is its lines, each ended by a newline: one line per file of
      each group plus one empty line per group, so it has as many lines as
      the groups have files, plus the number of groups. */
  lemma {:induction false} ReportIsLines(d: Dict<Digest, Path>)
    ensures ReportText(d) == Unlines(ReportLines(d))
    ensures |ReportLines(d)| == |Flatten(d)| + |d|
  {
    if |d| > 0 {
      var fl := FileLines(d[0].key, d[0].items);
      ReportIsLines(d[1..]);
      GroupTextIsLines(d[0].key, d[0].items);
      UnlinesAppend(fl, [""] + ReportLines(d[1..]));
      assert fl + [""] + ReportLines(d[1..]) == fl + ([""] + ReportLines(d[1..]));
    }
  }

  /** Reading the text back: cut it at each newline (a final piece without a
      newline is a line too). */
  function SplitLines(text: string): seq<string>
    decreases |text|
  {
    if |text| == 0 then []
    else
      var i := FirstIndex(text, '\n');
      if i == |text| then [text] else [text[..i]] + SplitLines(text[i + 1..])
  }

  /** A line without its terminator holds no newline. */
  predicate SingleLine(l: string) {
    '\n' !in l
  }

  /** A newline-free line followed by a newline and more text is cut
      right after the line. */
  lemma CutAtNewline(l: string, more: string)
    requires SingleLine(l)
    ensures FirstIndex(l + "\n" + more, '\n') == |l|
    ensures (l + "\n" + more)[..|l|] == l
    ensures (l + "\n" + more)[|l| + 1..] == more
  {
    var text := l + "\n" + more;
    assert text[|l|] == '\n';
    assert forall j :: 0 <= j < |l| ==> text[j] == l[j];
    assert text[..|l|] == l;
    assert text[|l| + 1..] == more;
  }

  /** Lines free of newlines come back from their text unchanged. */
  lemma {:induction false} SplitUnlines(ls: seq<string>)
    requires forall i :: 0 <= i < |ls| ==> SingleLine(ls[i])
    ensures SplitLines(Unlines(ls)) == ls
  {
    if |ls| > 0 {
      var more := Unlines(ls[1..]);
      var text := ls[0] + "\n" + more;
      assert Unlines(ls) == text;
      CutAtNewline(ls[0], more);
      assert SplitLines(text) == [ls[0]] + SplitLines(more);
      SplitUnlines(ls[1..]);
      assert ls == [ls[0]] + ls[1..];
    }
  }

  /** A file line cut at its first tab. */
  function ParseLine(line: string): (Digest, Path) {
    var t := FirstIndex(line, '\t');
    (line[..t], if t < |line| then line[t + 1..] else "")
  }

  function PathsOf(block: seq<string>): (ps: seq<Path>)
    ensures |ps| == |block|
    ensures forall j :: 0 <= j < |block| ==> ps[j] == ParseLine(block[j]).1
  {
    if |block| == 0 then [] else [ParseLine(block[0]).1] + PathsOf(block[1..])
  }

  /** Lines back into groups: a group runs up to the next empty line and
      takes its key from its first line. */
  function ParseGroups(ls: seq<string>): Dict<Digest, Path>
    decreases |ls|
  {
    if |ls| == 0 then []
    else
      var n := FirstIndex(ls, "");
      var block := ls[..n];
      var rest := if n < |ls| then ls[n + 1..] else [];
      [Entry(if |block| > 0 then ParseLine(block[0]).0 else "", PathsOf(block))]
        + ParseGroups(rest)
  }

  function ParseReport(text: string): Dict<Digest, Path> {
    ParseGroups(SplitLines(text))
  }

  /** Groups whose report can be read back: none is empty, no digest holds a
      tab or a newline, no path holds a newline.  Duplicate groups have at
      least two files, and a hex digest holds neither character. */
  predicate Readable(d: Dict<Digest, Path>) {
    forall i :: 0 <= i < |d| ==>
      && |d[i].items| > 0
      && '\t' !in d[i].key
      && '\n' !in d[i].key
      && forall j :: 0 <= j < |d[i].items| ==> '\n' !in d[i].items[j]
  }

  lemma ParseFileLine(key: Digest, path: Path)
    requires '\t' !in key
    ensures ParseLine(FileLine(key, path)) == (key, path)
  {
    var line := FileLine(key, path);
    assert line[|key|] == '\t';
    assert forall j :: 0 <= j < |key| ==> line[j] == key[j];
    assert FirstIndex(line, '\t') == |key|;
    assert line[..|key|] == key;
    assert line[|key| + 1..] == path;
  }

  /** File lines of a tab-free digest are never empty and parse back into
      their digest and path. */
  lemma FileLinesParse(key: Digest, items: seq<Path>)
    requires '\t' !in key
    ensures forall j :: 0 <= j < |items| ==> FileLines(key, items)[j] != ""
    ensures PathsOf(FileLines(key, items)) == items
    ensures |items| > 0 ==> ParseLine(FileLines(key, items)[0]).0 == key
  {
    var fl := FileLines(key, items);
    forall j | 0 <= j < |items| ensures fl[j] != "" && ParseLine(fl[j]) == (key, items[j]) {
      assert |fl[j]| > |key|;
      ParseFileLine(key, items[j]);
    }
  }

  /** The first group's lines, up to its empty line, parse back into it. */
  lemma ParseFirstGroup(key: Digest, items: seq<Path>, rest: seq<string>)
    requires '\t' !in key && |items| > 0
    ensures ParseGroups(FileLines(key, items) + [""] + rest)
              == [Entry(key, items)] + ParseGroups(rest)
  {
    var fl := FileLines(key, items);
    var ls := fl + [""] + rest;
    FileLinesParse(key, items);
    assert FirstIndex(ls, "") == |fl| by {
      assert ls[|fl|] == "";
      assert forall j :: 0 <= j < |fl| ==> ls[j] == fl[j];
    }
    assert ls[..|fl|] == fl;
    assert ls[|fl| + 1..] == rest;
  }

  lemma {:induction false} ParseGroupsLines(d: Dict<Digest, Path>)
    requires Readable(d)
    ensures ParseGroups(ReportLines(d)) == d
  {
    if |d| > 0 {
      ParseFirstGroup(d[0].key, d[0].items, ReportLines(d[1..]));
      ParseGroupsLines(d[1..]);
      assert d == [d[0]] + d[1..];
    }
  }

  /** Round trip: reading duplicateFileList.txt back gives the duplicate
      groups, their digests and their files in the order they were written. */
  lemma ReportRoundTrip(d: Dict<Digest, Path>)
    requires Readable(d)
    ensures ParseReport(ReportText(d)) == d
  {
    ReportIsLines(d);
    LinesFreeOfNewlines(d);
    SplitUnlines(ReportLines(d));
    ParseGroupsLines(d);
  }

  lemma {:induction false} LinesFreeOfNewlines(d: Dict<Digest, Path>)
    requires Readable(d)
    ensures forall i :: 0 <= i < |ReportLines(d)| ==> SingleLine(ReportLines(d)[i])
  {
    if |d| > 0 {
      LinesFreeOfNewlines(d[1..]);
      var fl := FileLines(d[0].key, d[0].items);
      forall j | 0 <= j < |fl| ensures SingleLine(fl[j]) {
        assert fl[j] == d[0].key + "\t" + d[0].items[j];
      }
      assert ReportLines(d) == fl + [""] + ReportLines(d[1..]);
    }
  }
}

=== FILE: scan.dfy ===
/** The extension filter of getFilePaths.  The directory walk itself is I/O:
    its output, the sequence of (root, file names) steps os.walk yields, is
    the input here. */
module Scan {
  import opened Seqs
  import opened Paths

  /** One `(root, directories, files)` triple of os.walk; the subdirectory
      names play no part in the filter and are left out. */
  datatype WalkStep = WalkStep(root: Path, files: seq<string>)

  /** The test of getFilePaths's inner loop: with a non-empty extension,
      `filename.endswith(extension)`; with the empty one, every file. */
  predicate Selected(filename: string, extension: string) {
    if extension != "" then EndsWith(filename, extension) else true
  }

  /** The file names of one directory that pass the test, in listing order.
      Since every name ends with the empty suffix, the two branches of the
      test agree: a name is kept iff it ends with the extension. */
  function FilterNames(files: seq<string>, extension: string): (kept: seq<string>)
    ensures IsSubsequence(kept, files)
    ensures forall n :: n in kept <==> n in files && EndsWith(n, extension)
    ensures extension == "" ==> kept == files
  {
    if |files| == 0 then []
    else if Selected(files[0], extension) then [files[0]] + FilterNames(files[1..], extension)
    else FilterNames(files[1..], extension)
  }

  /** A name listed several times is kept as often as it is listed when it
      ends with the extension, and not at all otherwise. */
  lemma {:induction false} FilterNamesCount(files: seq<string>, extension: string)
    ensures forall n :: multiset(FilterNames(files, extension))[n]
              == if EndsWith(n, extension) then multiset(files)[n] else 0
  {
    if |files| > 0 {
      assert files == [files[0]] + files[1..];
      FilterNamesCount(files[1..], extension);
    }
  }

  /** `os.path.join(root, name)` for each name, in order. */
  function JoinAll(root: Path, names: seq<string>): (paths: seq<Path>)
    ensures |paths| == |names|
    ensures forall j :: 0 <= j < |names| ==> paths[j] == Join(root, names[j])
  {
    if |names| == 0 then [] else [Join(root, names[0])] + JoinAll(root, names[1..])
  }

  /** Number of files the walk lists. */
  function FileCount(walk: seq<WalkStep>): nat {
    if |walk| == 0 then 0 else |walk[0].files| + FileCount(walk[1..])
  }

  /** getFilePaths without the walk: the joined paths of the selected files,
      directory by directory in walk order. */
  function GetFilePaths(walk: seq<WalkStep>, extension: string): (paths: seq<Path>)
    ensures extension == "" ==> |paths| == FileCount(walk)
  {
    if |walk| == 0 then []
    else JoinAll(walk[0].root, FilterNames(walk[0].files, extension))
         + GetFilePaths(walk[1..], extension)
  }

  /** A path is collected iff it is the join of some listed file name that
      ends with the extension and the root it was listed under. */
  lemma {:induction false} GetFilePathsMembers(walk: seq<WalkStep>, extension: string, p: Path)
    ensures p in GetFilePaths(walk, extension) <==>
              exists i, j :: 0 <= i < |walk| && 0 <= j < |walk[i].files|
                && EndsWith(walk[i].files[j], extension)
                && p == Join(walk[i].root, walk[i].files[j])
  {
    if |walk| > 0 {
      var here := JoinAll(walk[0].root, FilterNames(walk[0].files, extension));
      GetFilePathsMembers(walk[1..], extension, p);
      if p in here {
        var j :| 0 <= j < |here| && here[j] == p;
        var n := FilterNames(walk[0].files, extension)[j];
        assert n in walk[0].files;
        var j' :| 0 <= j' < |walk[0].files| && walk[0].files[j'] == n;
        assert EndsWith(walk[0].files[j'], extension) && p == Join(walk[0].root, walk[0].files[j']);
      }
      if exists i, j :: 0 <= i < |walk| && 0 <= j < |walk[i].files|
          && EndsWith(walk[i].files[j], extension)
          && p == Join(walk[i].root, walk[i].files[j])
      {
        var i, j :| 0 <= i < |walk| && 0 <= j < |walk[i].files|
          && EndsWith(walk[i].files[j], extension)
          && p == Join(walk[i].root, walk[i].files[j]);
        if i == 0 {
          var n := walk[0].files[j];
          var kept := FilterNames(walk[0].files, extension);
          assert n in kept;
          var k :| 0 <= k < |kept| && kept[k] == n;
          assert here[k] == p;
        } else {
          assert walk[1..][i - 1] == walk[i];
        }
      }
    }
  }
}

=== FILE: seqs.dfy ===
/** Sequence notions shared by every stage of the duplicate finder. */
module Seqs {

  /** No element of s occurs twice. */
  predicate Distinct<T(==)>(s: seq<T>) {
    forall i, j :: 0 <= i < j < |s| ==> s[i] != s[j]
  }

  /** Position of the first x in s, or |s| when x does not occur.  On an
      element that is present this is Python's `list.index`. */
  function FirstIndex<T(==)>(s: seq<T>, x: T): (i: nat)
    ensures i <= |s|
    ensures i < |s| <==> x in s
    ensures i < |s| ==> s[i] == x
    ensures forall j :: 0 <= j < i ==> s[j] != x
  {
    if |s| == 0 then 0
    else if s[0] == x then 0
    else 1 + FirstIndex(s[1..], x)
  }

  /** a is b with some elements deleted and the others left in order. */
  predicate IsSubsequence<T(==)>(a: seq<T>, b: seq<T>)
    decreases |b|
  {
    if |a| == 0 then true
    else if |b| == 0 then false
    else if a[0] == b[0] then IsSubsequence(a[1..], b[1..])
    else IsSubsequence(a, b[1..])
  }

  /** In a sequence without repetitions, list.index finds every element at
      its own position. */
  lemma DistinctFirstIndex<T>(s: seq<T>, i: int)
    requires Distinct(s) && 0 <= i < |s|
    ensures FirstIndex(s, s[i]) == i
  {
  }

  /** A sequence is free of repetitions iff it holds every value at most once. */
  lemma {:induction false} DistinctMultiset<T>(s: seq<T>)
    ensures Distinct(s) <==> forall x :: multiset(s)[x] <= 1
  {
    if |s| > 0 {
      var rest := s[1..];
      assert s == [s[0]] + rest;
      DistinctMultiset(rest);
      if Distinct(s) {
        assert Distinct(rest) by {
          forall i, j | 0 <= i < j < |rest| ensures rest[i] != rest[j] {
            assert rest[i] == s[i + 1] && rest[j] == s[j + 1];
          }
        }
        assert s[0] !in rest;
      } else if forall x :: multiset(s)[x] <= 1 {
        assert multiset(s) == multiset{s[0]} + multiset(rest);
        assert forall x :: multiset(rest)[x] <= multiset(s)[x];
        assert s[0] !in rest by {
          assert multiset(s)[s[0]] == 1 + multiset(rest)[s[0]];
        }
        assert Distinct(s) by {
          forall i, j | 0 <= i < j < |s| ensures s[i] != s[j] {
            if i == 0 {
              assert s[j] == rest[j - 1];
            } else {
              assert s[i] == rest[i - 1] && s[j] == rest[j - 1];
            }
          }
        }
      }
    }
  }

  /** Taking elements away from a sequence without repetitions (in any
      order) leaves a sequence without repetitions. */
  lemma DistinctSubMultiset<T>(a: seq<T>, b: seq<T>)
    requires Distinct(b)
    requires multiset(a) <= multiset(b)
    ensures Distinct(a)
  {
    DistinctMultiset(a);
    DistinctMultiset(b);
    forall x ensures multiset(a)[x] <= 1 {
      assert multiset(a)[x] <= multiset(b)[x];
    }
  }

  /** f applied to every element, in order. */
  function Image<T, U>(s: seq<T>, f: T -> U): (r: seq<U>)
    ensures |r| == |s|
    ensures forall i :: 0 <= i < |s| ==> r[i] == f(s[i])
  {
    if |s| == 0 then [] else Image(s[..|s| - 1], f) + [f(s[|s| - 1])]
  }

  /** The elements of s in order of first occurrence, each once. */
  function Dedup<T(==,!new)>(s: seq<T>): (r: seq<T>)
    ensures Distinct(r)
    ensures forall x :: x in r <==> x in s
  {
    if |s| == 0 then []
    else
      var r0 := Dedup(s[..|s| - 1]);
      if s[|s| - 1] in r0 then r0 else r0 + [s[|s| - 1]]
  }

  /** The elements x of s with f(x) == k, in order and with repetitions. */
  function Select<T(!new), K(==)>(s: seq<T>, f: T -> K, k: K): (r: seq<T>)
    ensures forall x :: x in r <==> x in s && f(x) == k
    ensures multiset(r) <= multiset(s)
  {
    if |s| == 0 then []
    else
      var last := s[|s| - 1];
      assert s == s[..|s| - 1] + [last];
      Select(s[..|s| - 1], f, k) + (if f(last) == k then [last] else [])
  }
}
